=== FILE: README.md ===
# A Dafny model of the chat and code-preview core of supabase-nextjs

The application is a Next.js chat front-end for a text-generation model. Its
core is small, text-processing logic, and this project models all of it in
Dafny:

- **`Message`** (`message.dfy`) models the chat message view.
  - `parseCodeBlocks` runs the global regular expression
    `/```(\w+)?\n([\s\S]*?)```/g` over a message. It returns, in order, the
    text between matches and one `{language, content}` block per match.
  - `isCommand` decides whether a block gets a run button.
  - The preview tab hands a block to the sandbox under a file name chosen by
    its language.

  The regular expression is written out by hand:
  - `MatchAt` is one attempt at a start position.
  - `Exec` is `regex.exec` from `lastIndex`.
  - `Scan` is the loop at token level, keeping the raw fence text.
  - `Parse` maps tokens to the parts the view renders.
  - `ParseCodeBlocks` is the loop of the source, proved equal to `Parse`.

  The model proves several properties of the scan:
  - it tiles the message exactly;
  - it never skips a match;
  - it is the only tiling that agrees with the regular expression;
  - an opening fence that is never closed stays text.
- **`Sandbox`** (`sandbox.dfy`) models the preview iframe.
  - It builds the jsDelivr URL of each dependency.
  - It builds the document written into the frame. The style sheet and the
    dependency links replace the page's first `</head>`, and the script
    replaces its first `</body>`.
  - It tracks the frame height set by the page's `resize` messages.
- **`Execute`** (`execute.dfy`) models the command route. It checks an
  allowlist of program-name prefixes, runs the command, and chooses the
  status code.
- **`ChatRoute`** (`chat.dfy`) models the chat route. It validates the
  request, builds the prompt from the last message, and maps the model's
  reply or error to a response.
- **`JsonExtract`, `GenerateRoute` and `PreviewRoute`** (`generate.dfy`) model
  the code-generation and preview routes. Both cut the span matched by
  `/\{[\s\S]*\}/` out of the model's reply, which is the text from the first
  `{` to the last `}`. They parse that span and map every failure to a fixed
  500 message.
- **`Typing`** (`typing.dfy`) models the typing animation. It is a tick
  machine that shows one more character per timer firing, calls `onComplete`
  at the end, and draws a cursor while characters remain.
- **`Optional`, `Strings`, `Js` and `Api`** (`base.dfy`, `js.dfy`) model the
  JavaScript library behaviour the core relies on:
  - `indexOf`, `split` and `join`;
  - `String.prototype.replace` with a string pattern, including its `$`
    patterns;
  - truthiness, property reads and template-literal string conversion;
  - the JSON responses of the routes.

The text-generation model, the shell, `JSON.parse` and `req.json()` are not
modelled. Each appears as a parameter or an input value:
- `generate: string -> Generation` stands for the text-generation model;
- `run: string -> ExecOutcome` stands for the shell;
- `parse: string -> Body` stands for `JSON.parse`;
- a `Body` (either `Parsed(value)` or `Malformed(message)`) stands for what
  `req.json()` produced.

## Model

| member | source | states |
|---|---|---|
| Message.ParseCodeBlocks | src/components/chat/message.tsx:20-44 | The loop of the source (push the text before each match, push the block, move `lastIndex`, push the rest) returns exactly `Parse(content)` |
| Message.LoopIsParse | src/components/chat/message.tsx:26-41 | The loop invariant admits one final result only: starting from offset 0 with nothing pushed, the loop finishes with `r` exactly when `r == Parse(s)` |
| Message.LoopUnique | src/components/chat/message.tsx:26-41 | From any loop state, the result is the parts pushed so far followed by the parts of the scan from `lastIndex` |
| Message.PartsStep | src/components/chat/message.tsx:27-36 | One loop round gives three things in order: the text before the leftmost match (only when it is non-empty), the match's block, then the parts from `regex.lastIndex` |
| Message.ParseTiles | src/components/chat/message.tsx:20-44 | The parts are the images of a token sequence with four properties: it spells the message exactly, in order; text tokens are never empty or adjacent; every block is well formed; and every token agrees with the regular expression where it starts |
| Message.ScanTiles | src/components/chat/message.tsx:26-41 | The scan loses and adds no character: its raw tokens concatenate to the message from `lastIndex` on |
| Message.ScanWellFormed | src/components/chat/message.tsx:26-41 | Every scan is well formed. Text tokens are non-empty, and a text token is always followed by a block. Every info is a word, and every body stops at the first closing "```" |
| Message.ScanFaithful | src/components/chat/message.tsx:26-37 | Every token of the scan agrees with `regex.exec` at its own start: a text token ends at or before the next match, and a block is the match found right there |
| Message.AgreesMeans | src/components/chat/message.tsx:22-26 | Agreement in terms of single attempts: the regular expression fails at every start a text token covers, and a block token is the attempt at its start |
| Message.ScanUnique | src/components/chat/message.tsx:26-41 | Conversely, a well-formed tiling of the message from `o` on that agrees token by token is the scan from `o` |
| Message.ParseIsUnique | src/components/chat/message.tsx:20-44 | Any well-formed, faithful tiling of the message has the output of `parseCodeBlocks` as its image; the output is determined by these properties alone |
| Message.ParseShape | src/components/chat/message.tsx:27-41 | The rendered parts have four properties. The empty message has no parts. No text part is empty. A text part is always followed by a block. Every language is a word or "plaintext" |
| Message.BlockFreeIsText | src/components/chat/message.tsx:26-41 | Suppose no "```" is followed by another at distance four or more. Then the whole message is one text part, verbatim, and "" gives no parts |
| Message.UnterminatedIsText | src/components/chat/message.tsx:22-41 | Take a "```" at `i` with no fence from `i + 4` on. Either the message from `i` on ends the last text part, or `i` lies in the closing "```" of the last block |
| Message.NonWordInfoIsText | src/components/chat/message.tsx:22 | A "```" whose word info is followed by a character that is neither a word character nor a line break (as in "```c++") opens no block, whatever body and closing "```" follow: when no later pair of fences could make a block, the whole message is one text part |
| Message.CppInfoIsText | src/components/chat/message.tsx:22 | Example: the message "```c++\nx\n```" is one text part |
| Message.SingleFence | src/components/chat/message.tsx:31-34 | A message that is exactly one well-formed fence gives exactly one block, with language `info || "plaintext"` and the trimmed body |
| Message.CommandOutputIsOneBlock | src/app/chat/page.tsx:100 | The chat shows command output as "```\n" + output + "\n```". When the output holds no "```", that message is one "plaintext" block whose content is the trimmed output |
| Message.MatchAtIff | src/components/chat/message.tsx:22 | The regular expression matches at `i`, with info `w` and body `b`, exactly when the message holds "```" + w + "\n" + b + "```" at `i`. Here `w` must be a word and `b` must hold no earlier "```" |
| Message.MatchAtSound | src/components/chat/message.tsx:22 | A successful attempt is "```", a word-only info up to a newline, and a body that ends at the first "```" after it |
| Message.MatchAtComplete | src/components/chat/message.tsx:22 | Wherever the message holds a fence with a word info, the attempt there succeeds. Its info is that word, and its body is no longer than the text up to that fence's closing "```" |
| Message.MatchAtOpening | src/components/chat/message.tsx:22 | At "```" followed by word characters and a newline, the attempt succeeds exactly when a "```" follows the newline, and it closes at the first one (the lazy body) |
| Message.ExecLeftmost | src/components/chat/message.tsx:26 | `regex.exec` from `lastIndex` reports a start at or after it, and the regular expression fails at every start it skips |
| Message.ExecNone | src/components/chat/message.tsx:26 | When every attempt from `lastIndex` on fails, `regex.exec` returns null |
| Message.ExecMatch | src/components/chat/message.tsx:26 | What `regex.exec` returns is the attempt at the start it reports |
| Message.ExecShape | src/components/chat/message.tsx:22 | The match `regex.exec` returns has a word for group 1 and a body that closes at the first "```" |
| Message.ExecSpells | src/components/chat/message.tsx:22-36 | The message from a match's start to `regex.lastIndex` spells its fence: "```", group 1, a newline, group 2, "```" |
| Message.FindFenceLeftmost | src/components/chat/message.tsx:22 | The lazy `([\s\S]*?)```` stops at the first "```": there is none between the search start and the fence found, and none at all when nothing is found |
| Message.FindFenceIsIndexOf | src/components/chat/message.tsx:22 | The fence search is `indexOf("```", from)` |
| Message.WordRunWord | src/components/chat/message.tsx:22 | The greedy `(\w+)?` consumes word characters only and stops at the first non-word character or the end |
| Message.TrimStart | src/components/chat/message.tsx:33 | Only whitespace is dropped from the front, and what is left starts at a non-space |
| Message.TrimEnd | src/components/chat/message.tsx:33 | Only whitespace is dropped from the back, and what is left ends at a non-space |
| Message.TrimIgnoresTrailingWs | src/components/chat/message.tsx:33 | Trailing whitespace does not change `match[2].trim()` |
| Message.TrimKeepsHead | src/components/chat/message.tsx:46-48 | The trimmed content starts with "$" or ">" exactly when the content does after its leading whitespace |
| Message.IsCommandOnTrimmedBody | src/components/chat/message.tsx:46-48 | A block gets a run button exactly when the first non-space character of its raw body is "$" or ">" |
| Message.SandboxFiles | src/components/chat/message.tsx:113-117 | The sandbox gets exactly the three files "index.html", "styles.css" and "script.js". The file of the block's language ("html"; "css"; "javascript" or "js") holds the block's content, and every other file is "" |
| Message.PreviewNeedsHtml | src/components/chat/message.tsx:113-117 | A block in any language other than "html" previews as an empty document: its style sheet or script has no page to go into |
| Message.PreviewOfHtml | src/components/chat/message.tsx:113-117 | An HTML block previews as that page with an empty style block and the height script at its first `</head>` and `</body>`; with neither anchor, as the page verbatim |
| Sandbox.OtherFilesIgnored | src/components/preview/sandbox.tsx:33-35 | Only "index.html", "styles.css" and "script.js" are read: adding, replacing or removing any other file, such as an "index.js", leaves the document unchanged, both as written and as intended |
| Sandbox.UrlOfPlainName | src/components/preview/sandbox.tsx:29 | A name without `@` gives `https://cdn.jsdelivr.net/npm/<name>@<version>` |
| Sandbox.UrlOfScopedName | src/components/preview/sandbox.tsx:24-27 | A name with an `@` and exactly one `/` (a scoped name `@scope/pkg`, but also `a/b@c`) keeps its spelling: the split-and-rejoin branch gives the same URL the plain branch would |
| Sandbox.UrlOfScopeOnly | src/components/preview/sandbox.tsx:26-27 | A name with `@` and no `/` is read as a scope whose package name prints as "undefined" |
| Sandbox.UrlDropsDeepPath | src/components/preview/sandbox.tsx:26-27 | A name with `@` and more than one `/` loses everything after its second piece |
| Sandbox.LinkLinesAreTags | src/components/preview/sandbox.tsx:22-41 | The link lines hold one `<script src>` tag per dependency, for that dependency's URL, in entry order and nothing else: split at line breaks they give the tags back one by one (names and versions without line breaks). No dependencies give an empty text |
| Strings.SplitJoin | src/components/preview/sandbox.tsx:41 | Splitting a `join` at a separator none of the parts holds gives the parts back |
| Sandbox.ComposeAsWritten | src/components/preview/sandbox.tsx:38-56 | With neither `</head>` nor `</body>` in the page, the component writes the page unchanged: no style, links or script are injected |
| Sandbox.Compose | src/components/preview/sandbox.tsx:38-56 | The intended document, with the style, the links and the script inserted verbatim. A page without anchors is written unchanged |
| Sandbox.ComposeAtAnchors | src/components/preview/sandbox.tsx:38-56 | For a page whose `</head>` precedes its first `</body>`, the document is assembled in order from five pieces: (1) the page up to the first `</head>`; (2) the style-and-links block; (3) the page up to the first `</body>`; (4) the script block; (5) the rest of the page, untouched |
| Sandbox.DocumentLayout | src/components/preview/sandbox.tsx:38-56 | The two `replace` calls change the first `</head>` and then the first `</body>`; nothing else of the page changes |
| Sandbox.ComposeWithoutHead | src/components/preview/sandbox.tsx:38-56 | A page without `</head>` gets no style sheet and no links; only the script block goes in at the first `</body>`, both as written and as intended |
| Sandbox.ComposeWithoutBody | src/components/preview/sandbox.tsx:38-56 | A page with a `</head>` and no `</body>` gets the style-and-links block at the first `</head>` and no script, when that block holds no `</body>`; without `$` in the block, `replace` writes the same |
| Sandbox.DocumentWithoutBody | src/components/preview/sandbox.tsx:38-56 | With no `</body>` in the page or in the inserted head block, the second `replace` changes nothing |
| Strings.InsertAvoids | src/components/preview/sandbox.tsx:38-56 | Inserting text that holds no `</body>` and begins and ends with characters `</body>` lacks creates no `</body>` |
| Sandbox.ComposeAsWrittenAgrees | src/components/preview/sandbox.tsx:38-56 | With no `$` in the style sheet, the script and the dependencies, the component writes the intended document |
| Sandbox.ScriptDollarAmpersand | src/components/preview/sandbox.tsx:44-45 | The script "$&" on a page with a `</body>` and no `</head>` is written as the matched `</body>`, not as the script: the two documents differ |
| Sandbox.DocumentDollarAmpersand | src/components/preview/sandbox.tsx:44-56 | `replace` writes the matched `</body>` where a "$&" stands in the body block, while the intended document keeps "$&" |
| Sandbox.ReportedHeight | src/components/preview/sandbox.tsx:64 | The height set always ends in "px" |
| Sandbox.ResizeToPixels | src/components/preview/sandbox.tsx:63-64 | A report of `n` pixels, `n` a whole number no larger than `Number.MAX_SAFE_INTEGER`, sets the height to the decimal digits of `n` followed by "px" |
| Sandbox.HeightIsLastResize | src/components/preview/sandbox.tsx:62-66 | After a run of messages, the height is the one asked for by the last resize report |
| Sandbox.HeightWithoutResize | src/components/preview/sandbox.tsx:16 | With no resize report, the height stays "300px" |
| Strings.Expand | src/components/preview/sandbox.tsx:38-56 | A replacement without `$` is inserted as it is |
| Strings.ExpandMatchOnce | src/components/preview/sandbox.tsx:44-45 | A `$&` between `$`-free texts becomes the matched text |
| Strings.ReplaceFirst | src/components/preview/sandbox.tsx:38-44 | `replace` with a string pattern rewrites only the leftmost occurrence, and leaves a text without the pattern unchanged |
| Strings.ReplaceFirstLiteral | src/components/preview/sandbox.tsx:38-56 | With no `$` in the replacement, `replace` is a verbatim insertion |
| Strings.Split | src/components/preview/sandbox.tsx:26 | `split("/")` gives at least one piece. The pieces hold no "/", and joined with "/" they give back the name |
| Strings.SplitFirst | src/components/preview/sandbox.tsx:26 | The first piece is the text before the first separator; the rest are the pieces of what follows it |
| Strings.IndexOf | src/components/preview/sandbox.tsx:38-44 | `indexOf` finds something exactly when the pattern occurs, and then it finds the leftmost occurrence |
| Strings.IndexOfFromLeftmost | src/components/chat/message.tsx:22 | `indexOf(pat, from)` finds nothing before the occurrence it reports, and nothing at all when it reports none |
| Strings.CharIndex | src/app/api/generate/route.ts:50 | The position of the first `{`, or the length of the text when there is none |
| Strings.LastCharIndex | src/app/api/generate/route.ts:50 | The position of the last `}`, with none after it, or none at all |
| Execute.StartsWithAny | src/app/api/execute/route.ts:20-22 | `some(startsWith)` holds exactly when some listed name is a prefix of the command |
| Execute.Post | src/app/api/execute/route.ts:24-50 | The status codes are decided in order, each with its fixed text. 400 "Command is required" exactly when the body's `command` is falsy. 403 "Command not allowed" exactly when it is a non-empty string the allowlist refuses. 200 exactly when an allowed string command runs to completion. Everything else, thrown errors included, is 500 "Failed to execute command" |
| Execute.RunsOnlyAllowed | src/app/api/execute/route.ts:35-42 | The shell is never consulted for a command the allowlist refuses: the response is the same whatever it would do |
| Execute.AllowedCommandOutput | src/app/api/execute/route.ts:42-43 | An allowed command that completes is answered with 200 and `stdout \|\| stderr` |
| Execute.AllowedIsPrefixClosed | src/app/api/execute/route.ts:20-22 | The check reads a prefix only: anything appended to an allowed command is allowed too |
| Execute.ChainedCommandAllowed | src/app/api/execute/route.ts:8-22 | Example of `AllowedIsPrefixClosed`: a second command chained after an allowed one ("ls; rm -rf ~") passes the check |
| Execute.AllowedStartsWithLetter | src/app/api/execute/route.ts:8-17 | Every allowed command starts with a lower-case letter |
| Execute.CommandBlocksAreRefused | src/app/api/execute/route.ts:35-40 | A block the chat offers to run (starting with "$" or ">") is refused, and sending it as it is gets a 403 |
| ChatRoute.Rejection | src/app/api/chat/route.ts:15-38 | The three checks, each as an if-and-only-if on the body: no `messages` array (required), an empty array (empty), a falsy last `content` (content required), and no rejection exactly when the last content is truthy |
| ChatRoute.Reply | src/app/api/chat/route.ts:81-103 | A reply is 200 exactly when the model produced non-empty text, carrying it with metadata type "text"; otherwise a 500 whose error starts with "Gemini API Error: " |
| ChatRoute.Post | src/app/api/chat/route.ts:11-116 | 400 exactly when a parsed body fails a check, carrying that check's message. A 200 comes only for a valid body, carrying the model's non-empty answer to the prompt for the last message. Every other response is a 500 |
| ChatRoute.ModelOnlyForValid | src/app/api/chat/route.ts:15-40 | For a rejected body the response does not depend on the model |
| ChatRoute.OnlyLastMessageCounts | src/app/api/chat/route.ts:31-71 | The messages before the last one change nothing in the response |
| ChatRoute.PromptKeepsQuestion | src/app/api/chat/route.ts:44-72 | Different questions give different prompts: the question can be read back from the prompt |
| ChatRoute.ReplyPassedOn | src/app/api/chat/route.ts:85-90 | Non-empty model text is passed on unchanged |
| ChatRoute.EmptyReplyFails | src/app/api/chat/route.ts:81-83 | Empty model text is a 500 "Gemini API Error: Empty response from Gemini API" |
| ChatRoute.FailureReported | src/app/api/chat/route.ts:95-103 | A failed generation is reported with its detail, else its message, else the fixed text, after the prefix |
| JsonExtract.SpanBounds | src/app/api/generate/route.ts:50 | No match exactly when no `{` is followed by a `}`. Otherwise the match is a `{`...`}` span: the leftmost start that has a match, and at that start the longest span |
| JsonExtract.JsonSpan | src/app/api/generate/route.ts:50-53 | `match` returns null exactly when no `{` is followed by a `}`. A match is at least two characters long, opens with `{` and closes with `}` |
| JsonExtract.SpanOfEmbeddedObject | src/app/api/generate/route.ts:49-50 | An object in prose with no `{` before it and no `}` after it is cut out exactly |
| JsonExtract.SpanJoinsTwoObjects | src/app/api/generate/route.ts:49-50 | Example of `SpanOfEmbeddedObject`: two objects in one reply are taken together with the prose between them |
| JsonExtract.JsonReply | src/app/api/generate/route.ts:50-62 | 200 exactly when the model produced text, the text has a span, and that span parses. The 200 carries the parsed value; every failure is the route's fixed 500 |
| JsonExtract.NoBracesNoData | src/app/api/generate/route.ts:50-53 | Text with no `{` or no `}` never yields data |
| GenerateRoute.Post | src/app/api/generate/route.ts:6-63 | Only 200 or 500. A body that is not JSON, or is null, gets the 500 "Failed to generate code". Any other body gets exactly the extraction from the model's answer to the prompt built around `prompt`: 200 with the parsed value exactly when the answer holds a `{…}` span that `JSON.parse` accepts, and otherwise the same 500 |
| GenerateRoute.PromptKeepsRequirements | src/app/api/generate/route.ts:14-42 | Different requirements give different prompts |
| GenerateRoute.ObjectReturned | src/app/api/generate/route.ts:45-56 | An answer that holds one JSON object set in prose gets that object, parsed, back |
| PreviewRoute.Post | src/app/api/preview/route.ts:6-57 | 400 "Code and language are required" exactly when a non-null body lacks a truthy `code` or `language`. A body that is not JSON, or is null, gets the 500 "Failed to generate preview". A body with both fields gets exactly the extraction from the model's answer to the prompt built around them |
| PreviewRoute.PreviewReturned | src/app/api/preview/route.ts:17-50 | A request with code and language gets 200 exactly when the model's answer holds a `{…}` span that `JSON.parse` accepts, and then the parsed value. Any other answer gets the 500 "Failed to generate preview" |
| PreviewRoute.ModelOnlyForValid | src/app/api/preview/route.ts:10-15 | Without both fields the response does not depend on the model or the parser, and for a non-null body it is the 400 |
| PreviewRoute.PromptKeepsCode | src/app/api/preview/route.ts:20-37 | For one language, different code gives different prompts |
| Typing.RunCourse | src/components/chat/typing-animation.tsx:14-28 | The whole run after any number `n` of firings. The counter is `min(n, length)`. The text shown is the typed prefix, or the earlier text before the first character is typed. A firing is pending until the one after the last character. `onComplete`, if given, is called once, by that firing |
| Typing.CancelIsFinal | src/components/chat/typing-animation.tsx:30-32 | After the cleanup no firing comes: the state stays as the cleanup left it, so an interrupted run never calls `onComplete` afterwards |
| Typing.TypedPrefix | src/components/chat/typing-animation.tsx:18-22 | After `k` firings, for 1 <= k <= the text length, the first `k` characters are shown and the next firing is set |
| Typing.Finished | src/components/chat/typing-animation.tsx:18-25 | One firing after the last character, the whole text is shown and no firing is pending. `onComplete`, if given, has been called once. An empty text leaves the earlier text shown |
| Typing.Settled | src/components/chat/typing-animation.tsx:22-25 | Once no firing is pending, later firings change nothing: `onComplete` is never called twice |
| Typing.CursorWhileTyping | src/components/chat/typing-animation.tsx:38-40 | During the animation the cursor shows exactly until the last character is typed |
| Typing.NoCursorWhenDone | src/components/chat/typing-animation.tsx:38-40 | After the animation no cursor is shown, whatever text was shown when the run began |
| Typing.EmptyTextKeepsOldDisplay | src/components/chat/typing-animation.tsx:12-28 | The text shown is not reset when a run begins: when the text becomes empty, whatever was shown stays shown, without a cursor |

## Left out

- Strings are Dafny `string`s, which are sequences of Unicode scalar values. JavaScript strings are sequences of UTF-16 code units. Lone surrogates cannot be represented. A character outside the Basic Multilingual Plane counts once here where `length`, `slice` and regular-expression positions count it twice.
- The whitespace that `trim` strips (message.tsx:33) is written out as a table. It covers the WhiteSpace and LineTerminator characters of ECMA-262 sections 12.2 and 12.3, with the Unicode space separators of category Zs listed explicitly.
- `String.prototype.replace` (sandbox.tsx:38-56) is modelled with its `$` patterns, following GetSubstitution of ECMA-262 section 22.1.3.19.1. `$n` group references do not apply, because the pattern is a string. This is what makes the Findings row below visible.
- The rendering is not modelled: the JSX markup, the icons, the tabs, `SyntaxHighlighter` and the class names. So is the `onExecuteCommand &&` condition on the run button. Only `isCommand` and the values passed to the views are modelled.
- The text-generation service, the shell (`exec`) and `JSON.parse` are parameters. Their behaviour, timing and failures are whatever the parameter says. Building the client (`new GoogleGenerativeAI`, the model name "gemini-pro") is left out.
- The chat route's module-level `GEMINI_API_KEY` check (chat/route.ts:4-7) throws when the module loads, before any request. It is left out because it is not part of a request's handling.
- In the chat route's outer `catch` (chat/route.ts:108-110), the fallback message for a thrown value that is not an `Error` is left out. Every value thrown on the modelled paths is an `Error`: the `req.json()` SyntaxError, and the errors the route throws itself.
- `console.log` and `console.error` calls are left out.
- Timers are not modelled. The `speed` delay (30 ms by default, typing-animation.tsx:11) and the scheduling by `setTimeout` are not represented: a tick is one firing, whenever it comes. The effect's restart when `text`, `speed` or `onComplete` changes is modelled as a new `Start` from the text shown.
- In the sandbox, the iframe itself is left out: the `srcdoc` assignment, the `sandbox` attribute, and adding and removing the `message` listener (sandbox.tsx:59, 68-69). The height script is modelled as fixed text; its run inside the page is not.
- `Object.entries(dependencies)` is modelled as a sequence of name/version pairs in the order given. JavaScript's ordering rule for integer-like keys is left out. The message view passes no dependencies at all.
- JSON numbers are integers in `Js.Value`, so fractional numbers are left out. This matters for `${event.data.height}px` with a fractional height, and for `${x}` of a non-integer number. `Num(n)` prints as the decimal digits of `n`, which is what JavaScript does up to `Number.MAX_SAFE_INTEGER` (2^53 - 1). Beyond that, `JSON.parse` rounds the integer to a double, and `${x}` prints the shortest digits that round back to it, in exponent form from 10^21 on. Neither is modelled, so `ResizeToPixels` states its claim only up to that bound.
- Sandbox.ComposeAtAnchors: the layout is stated only for a page whose first `</head>` precedes its first `</body>`, and whose style and link block holds no `</body>` of its own. A page missing one anchor is covered by `ComposeWithoutHead` and `ComposeWithoutBody`. For a `</body>` before the first `</head>`, or a `</body>` in the inserted block, the second `replace` can land inside the first insertion; `ComposeAsWritten` and `Compose` still define those cases.
- The error detail of a failed generation (`error.response?.data?.error`, chat/route.ts:99-101) is taken as its printed text, `Generation.detail`. The source tests the raw value for truthiness and then prints it. So a truthy value that prints as "" (such as `[]`) gives "Gemini API Error: " there, while the model falls back to the message.
- ChatRoute.Post: for a body that is not JSON, the 500 is stated through its status only. Its message is the parser's, which the model takes as given.
- The context pages that call the routes are left out, with one exception: the format in which the chat page shows command output (app/chat/page.tsx:100), which `CommandOutputIsOneBlock` uses. The pages are src/app/page.tsx, src/app/chat/page.tsx, src/app/generate/page.tsx and src/pages/chat.tsx. The python route and src/lib/gemini.ts are left out too.

## Findings

| source | as written | input that shows it | evidently intended | confidence | as-written member | corrected member |
|---|---|---|---|---|---|---|
| src/components/preview/sandbox.tsx:38-56 | The style sheet, the dependency links and the script are spliced into the page with `String.prototype.replace`, which expands `$&`, `` $` ``, `$'` and `$$` in the inserted text | `index.html` = "<body></body>" (no `</head>`), `script.js` = "$&": the frame gets `<script></body></script>` instead of `<script>$&</script>` (Sandbox.ScriptDollarAmpersand) | The code is inserted verbatim (for example with a replacer function), so that code containing `$` patterns survives (Sandbox.ComposeAtAnchors, Sandbox.ComposeAsWrittenAgrees) | high (not executed) | Sandbox.ComposeAsWritten | Sandbox.Compose |

=== FILE: base.dfy ===
/** The conventional optional value, used for "no match" and "not found". */
module Optional {
  datatype Option<+T> = None | Some(value: T)
}

/**
 String operations of JavaScript that the chat front-end relies on, written out
 over `seq<char>`: `indexOf`, `split` on one character,
 `Array.prototype.join`, and `String.prototype.replace` with a string pattern,
 including the `$` patterns that `replace` expands in its replacement text.
 */
module Strings {
  import opened Optional

  /** `pat` occurs in `s` starting at index `i`. */
  predicate OccursAt(s: string, pat: string, i: int) {
    0 <= i && i + |pat| <= |s| && s[i..i + |pat|] == pat
  }

  predicate Contains(s: string, pat: string) {
    exists i :: 0 <= i <= |s| && OccursAt(s, pat, i)
  }

  /** `i` is the leftmost occurrence of `pat` in `s`. */
  predicate IsFirst(s: string, pat: string, i: int) {
    OccursAt(s, pat, i) && forall k :: 0 <= k < i ==> !OccursAt(s, pat, k)
  }

  /** `s.indexOf(pat, from)`: the leftmost occurrence of `pat` at or after `from`. */
  function IndexOfFrom(s: string, pat: string, from: nat): (r: Option<nat>)
    ensures r.Some? ==> from <= r.value && OccursAt(s, pat, r.value)
    decreases |s| - from
  {
    if from + |pat| > |s| then None
    else if s[from..from + |pat|] == pat then Some(from)
    else IndexOfFrom(s, pat, from + 1)
  }

  /** `indexOf` finds the leftmost occurrence: `pat` occurs nowhere between `from` and the index found, nor anywhere after `from` when none is found. */
  lemma {:induction false} IndexOfFromLeftmost(s: string, pat: string, from: nat)
    ensures var r := IndexOfFrom(s, pat, from);
      forall k :: from <= k && (r.None? || k < r.value) ==> !OccursAt(s, pat, k)
    decreases |s| - from
  {
    if from + |pat| <= |s| && s[from..from + |pat|] != pat {
      IndexOfFromLeftmost(s, pat, from + 1);
    }
  }

  /** `indexOf` finds an occurrence at or before any known one. */
  lemma IndexOfFromFinds(s: string, pat: string, from: nat, c: nat)
    requires from <= c && OccursAt(s, pat, c)
    ensures IndexOfFrom(s, pat, from).Some? && IndexOfFrom(s, pat, from).value <= c
  {
    IndexOfFromLeftmost(s, pat, from);
  }

  /** `indexOf` finds a known occurrence when nothing occurs between `from` and it. */
  lemma IndexOfFromExact(s: string, pat: string, from: nat, c: nat)
    requires from <= c && OccursAt(s, pat, c)
    requires forall k :: from <= k < c ==> !OccursAt(s, pat, k)
    ensures IndexOfFrom(s, pat, from) == Some(c)
  {
    IndexOfFromLeftmost(s, pat, from);
  }

  /** `s.indexOf(pat)`. */
  function IndexOf(s: string, pat: string): (r: Option<nat>)
    ensures r.Some? <==> Contains(s, pat)
    ensures r.Some? ==> IsFirst(s, pat, r.value)
  {
    IndexOfFromLeftmost(s, pat, 0);
    IndexOfFrom(s, pat, 0)
  }

  /** Index of the first `c` in `s`, or `|s|` when there is none. */
  function CharIndex(s: string, c: char): (r: nat)
    ensures r <= |s|
    ensures r < |s| ==> s[r] == c
    ensures c !in s[..r]
  {
    if |s| == 0 then 0
    else if s[0] == c then 0
    else
      var r := 1 + CharIndex(s[1..], c);
      assert s[..r] == [s[0]] + s[1..][..r - 1];
      r
  }

  /** Index of the last `c` in `s`, if any. */
  function LastCharIndex(s: string, c: char): (r: Option<nat>)
    ensures r.Some? ==> r.value < |s| && s[r.value] == c && c !in s[r.value + 1..]
    ensures r.None? ==> c !in s
  {
    if |s| == 0 then None
    else if s[|s| - 1] == c then Some(|s| - 1)
    else
      var r := LastCharIndex(s[..|s| - 1], c);
      assert s == s[..|s| - 1] + [s[|s| - 1]];
      r
  }

  /** Text between a fixed prefix and a fixed suffix is determined by the whole. */
  lemma Enclosed(pre: string, a: string, b: string, post: string)
    requires pre + a + post == pre + b + post
    ensures a == b
  {
    assert |a| == |b|;
    forall k | 0 <= k < |a|
      ensures a[k] == b[k]
    {
      assert (pre + a + post)[|pre| + k] == a[k];
      assert (pre + b + post)[|pre| + k] == b[k];
    }
  }

  /** `parts.join(sep)`. */
  function Join(parts: seq<string>, sep: string): string {
    if |parts| == 0 then ""
    else if |parts| == 1 then parts[0]
    else parts[0] + sep + Join(parts[1..], sep)
  }

  /** `s.split(sep)` for a one-character separator: the pieces between separators, never none. */
  function Split(s: string, sep: char): (r: seq<string>)
    ensures |r| >= 1
    ensures Join(r, [sep]) == s
    ensures forall i :: 0 <= i < |r| ==> sep !in r[i]
    ensures forall i, c :: 0 <= i < |r| && c in r[i] ==> c in s
    decreases |s|
  {
    var i := CharIndex(s, sep);
    if i == |s| then
      assert s[..i] == s;
      [s]
    else
      var rest := Split(s[i + 1..], sep);
      var r := [s[..i]] + rest;
      assert r[1..] == rest;
      assert s == s[..i] + [sep] + s[i + 1..];
      assert forall j, c :: 1 <= j < |r| && c in r[j] ==> c in s[i + 1..];
      r
  }

  /**
   The replacement text that `String.prototype.replace` inserts for one match of
   a string pattern (GetSubstitution, section 22.1.3.19.1 of ECMA-262): `$$`
   becomes `$`, `$&` the matched text, `` $` `` the text before the match and
   `$'` the text after it; every other character, a lone `$` included, is kept.
   */
  function Expand(repl: string, matched: string, before: string, after: string): (r: string)
    ensures '$' !in repl ==> r == repl
  {
    if |repl| == 0 then ""
    else if repl[0] == '$' && |repl| >= 2 && repl[1] in {'$', '&', '`', '\''} then
      var piece := match repl[1]
        case '$' => "$"
        case '&' => matched
        case '`' => before
        case _ => after;
      piece + Expand(repl[2..], matched, before, after)
    else
      [repl[0]] + Expand(repl[1..], matched, before, after)
  }

  /** `s.replace(pat, repl)` with a string pattern: only the leftmost occurrence is replaced. */
  function ReplaceFirst(s: string, pat: string, repl: string): (r: string)
    ensures !Contains(s, pat) ==> r == s
    ensures forall i {:trigger IsFirst(s, pat, i)} :: IsFirst(s, pat, i) ==>
              r == s[..i] + Expand(repl, pat, s[..i], s[i + |pat|..]) + s[i + |pat|..]
  {
    match IndexOf(s, pat)
    case None => s
    case Some(i) => s[..i] + Expand(repl, pat, s[..i], s[i + |pat|..]) + s[i + |pat|..]
  }

  /**
   `s.replace(pat, repl)` as it would read if `repl` were inserted as it is,
   `$` included: what a caller inserting arbitrary text means by it.
   */
  function ReplaceLiteral(s: string, pat: string, repl: string): (r: string)
    ensures !Contains(s, pat) ==> r == s
    ensures forall i {:trigger IsFirst(s, pat, i)} :: IsFirst(s, pat, i) ==> r == s[..i] + repl + s[i + |pat|..]
  {
    match IndexOf(s, pat)
    case None => s
    case Some(i) => s[..i] + repl + s[i + |pat|..]
  }

  /** With no `$` in the replacement, `replace` inserts it as it is. */
  lemma ReplaceFirstLiteral(s: string, pat: string, repl: string)
    requires '$' !in repl
    ensures ReplaceFirst(s, pat, repl) == ReplaceLiteral(s, pat, repl)
  {
    match IndexOf(s, pat)
    case None =>
    case Some(i) =>
      assert IsFirst(s, pat, i);
  }

  /** Text free of `$` at the front of a replacement is inserted as it is. */
  lemma {:induction false} ExpandPrefix(a: string, rest: string, matched: string, before: string, after: string)
    requires '$' !in a
    ensures Expand(a + rest, matched, before, after) == a + Expand(rest, matched, before, after)
  {
    if |a| > 0 {
      assert (a + rest)[0] == a[0];
      assert (a + rest)[1..] == a[1..] + rest;
      ExpandPrefix(a[1..], rest, matched, before, after);
      assert a == [a[0]] + a[1..];
    } else {
      assert a + rest == rest;
    }
  }

  /** A replacement holding one `$&` between `$`-free texts: the match is written where the `$&` stands. */
  lemma ExpandMatchOnce(a: string, b: string, matched: string, before: string, after: string)
    requires '$' !in a && '$' !in b
    ensures Expand(a + "$&" + b, matched, before, after) == a + matched + b
  {
    assert a + "$&" + b == a + ("$&" + b);
    ExpandPrefix(a, "$&" + b, matched, before, after);
    assert ("$&" + b)[2..] == b;
  }

  /** A string without the separator splits into itself. */
  lemma SplitNone(s: string, sep: char)
    requires sep !in s
    ensures Split(s, sep) == [s]
  {
    assert s[..|s|] == s;
  }

  /** Splitting at the first separator: the piece before it, then the pieces of what follows. */
  lemma SplitFirst(a: string, b: string, sep: char)
    requires sep !in a
    ensures Split(a + [sep] + b, sep) == [a] + Split(b, sep)
  {
    var s := a + [sep] + b;
    var i := CharIndex(s, sep);
    assert s[|a|] == sep;
    assert i == |a|;
    assert s[..i] == a;
    assert s[i + 1..] == b;
  }

  /** A character of a joined list comes from one of the parts or from the separator. */
  lemma {:induction false} JoinChars(parts: seq<string>, sep: string, c: char)
    requires c !in sep
    requires forall i :: 0 <= i < |parts| ==> c !in parts[i]
    ensures c !in Join(parts, sep)
    decreases |parts|
  {
    if |parts| > 1 {
      JoinChars(parts[1..], sep, c);
    }
  }

  /**
   An occurrence of `pat` in `s` with `repl` put in place of the `n`
   characters at `i` lies wholly before the insertion or wholly after it,
   when `repl` holds no `pat` and begins and ends with a character `pat`
   lacks; it is then an occurrence in `s` itself.
   */
  lemma InsertedOccurrence(s: string, pat: string, repl: string, i: nat, n: nat, k: int)
    requires i + n <= |s| && |pat| > 0
    requires |repl| > 0 && repl[0] !in pat && repl[|repl| - 1] !in pat
    requires !Contains(repl, pat)
    ensures OccursAt(s[..i] + repl + s[i + n..], pat, k) ==>
              || (k + |pat| <= i && OccursAt(s, pat, k))
              || (i + |repl| <= k && OccursAt(s, pat, k - |repl| + n))
  {
    var t := s[..i] + repl + s[i + n..];
    var e := i + |repl|;
    if k < 0 || k + |pat| > |t| {
    } else if k + |pat| <= i {
      assert t[k..k + |pat|] == s[k..k + |pat|];
    } else if k < i {
      assert t[i] == repl[0] && t[k..k + |pat|][i - k] == t[i];
    } else if k + |pat| <= e {
      assert t[k..k + |pat|] == repl[k - i..k - i + |pat|];
      assert OccursAt(t, pat, k) ==> OccursAt(repl, pat, k - i);
    } else if k < e {
      assert t[e - 1] == repl[|repl| - 1] && t[k..k + |pat|][e - 1 - k] == t[e - 1];
    } else {
      assert t[k..k + |pat|] == s[k - |repl| + n..k - |repl| + n + |pat|];
    }
  }

  /**
   Inserting `repl` in place of the `n` characters at `i`, before the first
   occurrence of `pat` at `j`, moves that occurrence by the change in length and
   adds none before it, when `repl` holds no `pat` and begins and ends with a
   character `pat` lacks.
   */
  lemma InsertKeepsFirst(s: string, pat: string, repl: string, i: nat, n: nat, j: nat)
    requires IsFirst(s, pat, j) && i + n <= j && |pat| > 0
    requires |repl| > 0 && repl[0] !in pat && repl[|repl| - 1] !in pat
    requires !Contains(repl, pat)
    ensures IsFirst(s[..i] + repl + s[i + n..], pat, j - n + |repl|)
  {
    var t := s[..i] + repl + s[i + n..];
    assert t[j - n + |repl|..j - n + |repl| + |pat|] == s[j..j + |pat|];
    forall k | 0 <= k < j - n + |repl|
      ensures !OccursAt(t, pat, k)
    {
      InsertedOccurrence(s, pat, repl, i, n, k);
    }
  }

  /** The same insertion into a text without `pat` leaves it without `pat`. */
  lemma InsertAvoids(s: string, pat: string, repl: string, i: nat, n: nat)
    requires !Contains(s, pat) && i + n <= |s| && |pat| > 0
    requires |repl| > 0 && repl[0] !in pat && repl[|repl| - 1] !in pat
    requires !Contains(repl, pat)
    ensures !Contains(s[..i] + repl + s[i + n..], pat)
  {
    var t := s[..i] + repl + s[i + n..];
    forall k | 0 <= k <= |t|
      ensures !OccursAt(t, pat, k)
    {
      InsertedOccurrence(s, pat, repl, i, n, k);
    }
  }

  /** Splitting a joined list at a separator none of its parts holds gives the list back. */
  lemma {:induction false} SplitJoin(parts: seq<string>, sep: char)
    requires |parts| >= 1
    requires forall k :: 0 <= k < |parts| ==> sep !in parts[k]
    ensures Split(Join(parts, [sep]), sep) == parts
    decreases |parts|
  {
    if |parts| == 1 {
      SplitNone(parts[0], sep);
    } else {
      SplitJoin(parts[1..], sep);
      SplitFirst(parts[0], Join(parts[1..], [sep]), sep);
      assert parts == [parts[0]] + parts[1..];
    }
  }

  lemma SliceConcat(s: string, a: nat, b: nat, c: nat)
    requires a <= b <= c <= |s|
    ensures s[a..c] == s[a..b] + s[b..c]
  {}

  /** An occurrence of `x + y` is an occurrence of `x` followed by one of `y`. */
  lemma OccursSplit(s: string, x: string, y: string, i: int)
    ensures OccursAt(s, x + y, i) <==> OccursAt(s, x, i) && OccursAt(s, y, i + |x|)
  {
    if 0 <= i && i + |x| + |y| <= |s| {
      SliceConcat(s, i, i + |x|, i + |x| + |y|);
      var a, b := s[i..i + |x|], s[i + |x|..i + |x| + |y|];
      if a + b == x + y {
        assert (a + b)[..|x|] == a && (x + y)[..|x|] == x;
        assert (a + b)[|x|..] == b && (x + y)[|x|..] == y;
      }
    }
  }

  /** Inside an occurrence of `t` at `i`, `p` occurs at offset `k` of `t` exactly when it occurs at `i + k` of `s`. */
  lemma OccursWithin(s: string, t: string, p: string, i: int, k: int)
    requires OccursAt(s, t, i)
    requires 0 <= k && k + |p| <= |t|
    ensures OccursAt(t, p, k) <==> OccursAt(s, p, i + k)
  {
    var u := s[i..i + |t|];
    var v := u[k..k + |p|];
    assert forall n :: 0 <= n < |p| ==> v[n] == s[i + k + n];
    assert v == s[i + k..i + k + |p|];
  }
}

=== FILE: chat.dfy ===
/**
 The chat route (`src/app/api/chat/route.ts`): a POST body holding a
 `messages` array is checked, the content of its last message is wrapped in a
 fixed instruction prompt and sent to the text-generation model, and the reply
 (or the error the model raised) becomes the response.
 */
module ChatRoute {
  import opened Optional
  import opened Js
  import opened Api
  import Strings

  const MESSAGES_REQUIRED := "Invalid request: messages array is required"
  const MESSAGES_EMPTY := "Invalid request: messages array is empty"
  const CONTENT_REQUIRED := "Invalid message format: content is required"
  const EMPTY_RESPONSE := "Empty response from Gemini API"
  const UNKNOWN_ERROR := "Unknown error occurred in Gemini API"
  const ERROR_PREFIX := "Gemini API Error: "

  /** The instruction text of the prompt, line by line, up to the line before the question. */
  const PROMPT_LINES: seq<string> := [
    "あなたは優秀なプログラミングアシスタントです。",
    "以下のルールに従って回答してください：",
    "",
    "1. コードを含む回答の場合、必ず以下の形式で記述してください：",
    "   ```言語名",
    "   コード",
    "   ```",
    "",
    "2. コードの説明は、コードブロックの前後に記述してください。",
    "",
    "3. コードの言語は、python, javascript, typescript, bash などを適切に指定してください。",
    "",
    "4. プレビュー可能なコードの場合、以下の形式でプレビューコードも含めてください：",
    "   ```html",
    "   <!-- プレビュー用のHTML -->",
    "   ```",
    "",
    "   ```css",
    "   /* プレビュー用のCSS */",
    "   ```",
    "",
    "   ```javascript",
    "   // プレビュー用のJavaScript",
    "   ```",
    "",
    "ユーザーの質問："]

  /** Everything of the prompt before the question: a line break, then the instruction lines, each ended by one. */
  const PROMPT_INTRO := "\n" + Strings.Join(PROMPT_LINES, "\n") + "\n"

  /** The prompt sent to the model: the instructions, then the question and a line break. */
  function Prompt(question: string): string {
    PROMPT_INTRO + question + "\n"
  }

  /** The last message of a list, which the route reads on its own. */
  function LastOf(messages: seq<Value>): Value
    requires |messages| > 0
  {
    messages[|messages| - 1]
  }

  /**
   The checks made before the model is asked, in their order: the 400 message
   of the first that fails, or `None` when the request goes on.
   */
  function Rejection(v: Value): (r: Option<string>)
    ensures r == Some(MESSAGES_REQUIRED) <==> !Member(v, "messages").Arr?
    ensures r == Some(MESSAGES_EMPTY) <==> Member(v, "messages") == Arr([])
    ensures r == Some(CONTENT_REQUIRED) <==>
              && Member(v, "messages").Arr? && |Member(v, "messages").elems| > 0
              && !Truthy(Member(LastOf(Member(v, "messages").elems), "content"))
    ensures r.None? <==>
              && Member(v, "messages").Arr? && |Member(v, "messages").elems| > 0
              && Truthy(Member(LastOf(Member(v, "messages").elems), "content"))
  {
    var messages := Member(v, "messages");
    if !Truthy(v) || !Truthy(messages) || !messages.Arr? then Some(MESSAGES_REQUIRED)
    else if |messages.elems| == 0 then Some(MESSAGES_EMPTY)
    else
      var last := LastOf(messages.elems);
      if !Truthy(last) || !Truthy(Member(last, "content")) then Some(CONTENT_REQUIRED)
      else None
  }

  /** `${lastMessage.content}` for a request that passed the checks. */
  function Question(v: Value): string
    requires Rejection(v).None?
  {
    ToStr(Member(LastOf(Member(v, "messages").elems), "content"))
  }

  /**
   The message the route reports for a failed generation: the error's
   `response.data.error` when there is one, else its `message`, else a fixed
   text.
   */
  function ErrorMessage(message: string, detail: string): (r: string)
    ensures detail != "" ==> r == detail
    ensures detail == "" && message != "" ==> r == message
    ensures detail == "" && message == "" ==> r == UNKNOWN_ERROR
    ensures r != ""
  {
    var r := UNKNOWN_ERROR;
    var r := if message != "" then message else r;
    if detail != "" then detail else r
  }

  /**
   The response for what the model produced: the text as a reply when there is
   some, and otherwise a 500 whose message names the model's error, an empty
   text counting as the error "Empty response from Gemini API".
   */
  function Reply(g: Generation): (r: Response)
    ensures r.status == 200 <==> g.Generated? && g.text != ""
    ensures r.status == 200 ==> r.payload == ChatReply(g.text, "text")
    ensures r.status != 200 ==> r.status == 500 && r.payload.Error? && Strings.OccursAt(r.payload.error, ERROR_PREFIX, 0)
  {
    match g
    case Generated(text) =>
      if text == "" then
        var e := ERROR_PREFIX + ErrorMessage(EMPTY_RESPONSE, "");
        assert e[..|ERROR_PREFIX|] == ERROR_PREFIX;
        Fail(500, e)
      else Ok(ChatReply(text, "text"))
    case GenerationFailed(message, detail) =>
      var e := ERROR_PREFIX + ErrorMessage(message, detail);
      assert e[..|ERROR_PREFIX|] == ERROR_PREFIX;
      Fail(500, e)
  }

  /**
   `POST`: a body that is not JSON fails with the parser's message; a body that
   fails a check gets that check's 400; otherwise the model is asked with the
   prompt for the last message's content. `generate` stands for the model.
   */
  function Post(body: Body, generate: string -> Generation): (r: Response)
    ensures r.status in {200, 400, 500}
    ensures r.status == 400 <==> body.Parsed? && Rejection(body.value).Some?
    ensures r.status == 400 ==> r.payload == Error(Rejection(body.value).value)
    ensures r.status == 200 ==>
              && body.Parsed? && Rejection(body.value).None?
              && r.payload.ChatReply?
              && generate(Prompt(Question(body.value))) == Generated(r.payload.content)
              && r.payload.content != "" && r.payload.metadataType == "text"
  {
    match body
    case Malformed(message) => Fail(500, message)
    case Parsed(v) =>
      match Rejection(v)
      case Some(m) => Fail(400, m)
      case None => Reply(generate(Prompt(Question(v))))
  }

  /** The model is asked only for a request that passed the checks: otherwise the answer is the same whatever it would say. */
  lemma ModelOnlyForValid(v: Value, g1: string -> Generation, g2: string -> Generation)
    requires Rejection(v).Some?
    ensures Post(Parsed(v), g1) == Post(Parsed(v), g2)
  {}

  /** Only the last message reaches the model: the messages before it change nothing. */
  lemma OnlyLastMessageCounts(props: map<string, Value>, earlier1: seq<Value>, earlier2: seq<Value>, last: Value,
                              generate: string -> Generation)
    ensures Post(Parsed(Obj(props["messages" := Arr(earlier1 + [last])])), generate)
         == Post(Parsed(Obj(props["messages" := Arr(earlier2 + [last])])), generate)
  {
    var v1 := Obj(props["messages" := Arr(earlier1 + [last])]);
    var v2 := Obj(props["messages" := Arr(earlier2 + [last])]);
    assert LastOf(Member(v1, "messages").elems) == last;
    assert LastOf(Member(v2, "messages").elems) == last;
  }

  /** The question can be read back from the prompt: different questions give different prompts. */
  lemma PromptKeepsQuestion(q1: string, q2: string)
    requires Prompt(q1) == Prompt(q2)
    ensures q1 == q2
  {
    Strings.Enclosed(PROMPT_INTRO, q1, q2, "\n");
  }

  /** A reply from the model with text in it is passed on as it is. */
  lemma ReplyPassedOn(v: Value, generate: string -> Generation)
    requires Rejection(v).None?
    requires generate(Prompt(Question(v))).Generated? && generate(Prompt(Question(v))).text != ""
    ensures Post(Parsed(v), generate) == Ok(ChatReply(generate(Prompt(Question(v))).text, "text"))
  {}

  /** An empty reply is reported as an error of the model. */
  lemma EmptyReplyFails(v: Value, generate: string -> Generation)
    requires Rejection(v).None? && generate(Prompt(Question(v))) == Generated("")
    ensures Post(Parsed(v), generate) == Fail(500, ERROR_PREFIX + EMPTY_RESPONSE)
  {}

  /** A failed generation is reported with its detail, else its message, else the fixed text, after the prefix. */
  lemma FailureReported(v: Value, generate: string -> Generation, message: string, detail: string)
    requires Rejection(v).None? && generate(Prompt(Question(v))) == GenerationFailed(message, detail)
    ensures detail != "" ==> Post(Parsed(v), generate) == Fail(500, ERROR_PREFIX + detail)
    ensures detail == "" && message != "" ==> Post(Parsed(v), generate) == Fail(500, ERROR_PREFIX + message)
    ensures detail == "" && message == "" ==> Post(Parsed(v), generate) == Fail(500, ERROR_PREFIX + UNKNOWN_ERROR)
  {}
}

=== FILE: execute.dfy ===
/**
 The command route (`src/app/api/execute/route.ts`): a POST body naming a
 shell command is checked against a list of allowed program names and, when
 it passes, run; the response carries the command's output or an error with
 its status.
 */
module Execute {
  import opened Js
  import opened Api
  import Message

  const ALLOWED_COMMANDS: seq<string> := ["ls", "pwd", "mkdir", "git", "npm", "yarn", "pnpm", "node"]

  /** `names.some((allowed) => command.startsWith(allowed))`, scanning the list from its head. */
  function StartsWithAny(command: string, names: seq<string>): (r: bool)
    ensures r <==> exists k :: 0 <= k < |names| && names[k] <= command
  {
    if |names| == 0 then false
    else if names[0] <= command then true
    else
      var r := StartsWithAny(command, names[1..]);
      assert forall k :: 1 <= k < |names| ==> names[k] == names[1..][k - 1];
      r
  }

  /** `isCommandAllowed`: the command begins with one of the allowed names. */
  predicate IsCommandAllowed(command: string) {
    StartsWithAny(command, ALLOWED_COMMANDS)
  }

  /** What `await execAsync(command)` gives: both output streams, or a rejection (a failed start or a non-zero exit). */
  datatype ExecOutcome = Completed(stdout: string, stderr: string) | Rejected

  const REQUIRED := "Command is required"
  const NOT_ALLOWED := "Command not allowed"
  const FAILED := "Failed to execute command"

  /**
   `POST`: read `command` from the body, answer 400 when it is falsy and 403
   when it is a string the list does not allow, run it otherwise and answer
   with `stdout || stderr`. Everything that throws ends in 500: a body that is
   not JSON, a `null` body (destructuring throws), a truthy command that is
   not a string (it has no `startsWith`), and a rejected run. `run` stands for
   the shell.
   */
  function Post(body: Body, run: string -> ExecOutcome): (r: Response)
    ensures r.status in {200, 400, 403, 500}
    ensures r.status == 200 <==> r.payload.Output?
    ensures r.status == 400 <==>
              body.Parsed? && !Nullish(body.value) && !Truthy(Member(body.value, "command"))
    ensures r.status == 403 <==>
              && body.Parsed? && !Nullish(body.value) && Member(body.value, "command").Str?
              && Member(body.value, "command").s != "" && !IsCommandAllowed(Member(body.value, "command").s)
    ensures r.status == 200 <==>
              && body.Parsed? && !Nullish(body.value) && Member(body.value, "command").Str?
              && IsCommandAllowed(Member(body.value, "command").s)
              && run(Member(body.value, "command").s).Completed?
    ensures r.status == 400 ==> r == Fail(400, REQUIRED)
    ensures r.status == 403 ==> r == Fail(403, NOT_ALLOWED)
    ensures r.status == 500 ==> r == Fail(500, FAILED)
  {
    match body
    case Malformed(_) => Fail(500, FAILED)
    case Parsed(v) =>
      if Nullish(v) then Fail(500, FAILED)
      else
        var command := Member(v, "command");
        if !Truthy(command) then Fail(400, REQUIRED)
        else if !command.Str? then Fail(500, FAILED)
        else if !IsCommandAllowed(command.s) then Fail(403, NOT_ALLOWED)
        else
          match run(command.s)
          case Rejected => Fail(500, FAILED)
          case Completed(out, err) => Ok(Output(if out != "" then out else err))
  }

  /** The shell is never consulted for a command the list refuses: the answer is the same whatever it would do. */
  lemma RunsOnlyAllowed(body: Body, run1: string -> ExecOutcome, run2: string -> ExecOutcome)
    requires body.Parsed? ==> !Member(body.value, "command").Str? || !IsCommandAllowed(Member(body.value, "command").s)
    ensures Post(body, run1) == Post(body, run2)
  {}

  /** An allowed command is run, and its answer is its standard output, or its error output when the former is empty. */
  lemma AllowedCommandOutput(props: map<string, Value>, command: string, run: string -> ExecOutcome)
    requires "command" in props && props["command"] == Str(command) && IsCommandAllowed(command)
    requires run(command).Completed?
    ensures var r := Post(Parsed(Obj(props)), run);
      && r.status == 200
      && (run(command).stdout != "" ==> r.payload == Output(run(command).stdout))
      && (run(command).stdout == "" ==> r.payload == Output(run(command).stderr))
  {
    assert command != "" by {
      var k :| 0 <= k < |ALLOWED_COMMANDS| && ALLOWED_COMMANDS[k] <= command;
    }
  }

  /** The check reads a prefix only: whatever follows an allowed command, the whole is allowed too. */
  lemma AllowedIsPrefixClosed(command: string, tail: string)
    requires IsCommandAllowed(command)
    ensures IsCommandAllowed(command + tail)
  {
    var k :| 0 <= k < |ALLOWED_COMMANDS| && ALLOWED_COMMANDS[k] <= command;
    assert ALLOWED_COMMANDS[k] <= command + tail;
  }

  /** In particular a second command chained after an allowed one passes the check. */
  lemma ChainedCommandAllowed()
    ensures IsCommandAllowed("ls; rm -rf ~")
  {
    assert ALLOWED_COMMANDS[0] <= "ls; rm -rf ~";
  }

  /** Every allowed name starts with a lower-case letter. */
  lemma AllowedStartsWithLetter(command: string)
    requires IsCommandAllowed(command)
    ensures |command| > 0 && 'a' <= command[0] <= 'z'
  {
    var k :| 0 <= k < |ALLOWED_COMMANDS| && ALLOWED_COMMANDS[k] <= command;
    assert command[0] == ALLOWED_COMMANDS[k][0];
  }

  /**
   A code block the chat offers to run (one starting with `$` or `>`) is
   refused by the list, so sending it as it is gets a 403 whatever the shell.
   */
  lemma CommandBlocksAreRefused(content: string, run: string -> ExecOutcome)
    requires Message.IsCommand(content)
    ensures !IsCommandAllowed(content)
    ensures Post(Parsed(Obj(map["command" := Str(content)])), run) == Fail(403, NOT_ALLOWED)
  {
    if IsCommandAllowed(content) {
      AllowedStartsWithLetter(content);
    }
  }
}

=== FILE: generate.dfy ===
/**
 The JSON object the code-generation routes cut out of the model's text with
 `text.match(/\{[\s\S]*\}/)`: the regular expression is tried from the left,
 and at the first start where it can match, the greedy `[\s\S]*` takes as much
 as it can, so the match runs from the first `{` to the last `}`.
 */
module JsonExtract {
  import opened Optional
  import opened Js
  import opened Api
  import Strings

  /** `text[i..j]` is a match of `/\{[\s\S]*\}/`: it opens with `{` and closes with a later `}`. */
  predicate MatchSpan(text: string, i: int, j: int) {
    0 <= i && i + 2 <= j <= |text| && text[i] == '{' && text[j - 1] == '}'
  }

  /**
   The bounds of the regular expression's match: the leftmost start that has
   a match, and at that start the longest match.
   */
  function SpanBounds(text: string): (r: Option<(nat, nat)>)
    ensures r.None? <==> forall i, j :: !MatchSpan(text, i, j)
    ensures r.Some? ==> MatchSpan(text, r.value.0, r.value.1)
    ensures r.Some? ==> forall i, j :: MatchSpan(text, i, j) ==>
                          r.value.0 < i || (r.value.0 == i && j <= r.value.1)
  {
    var first := Strings.CharIndex(text, '{');
    match Strings.LastCharIndex(text, '}')
    case None => None
    case Some(last) =>
      if first < last then
        assert MatchSpan(text, first, last + 1);
        Some((first, last + 1))
      else
        None
  }

  /** `jsonMatch?.[0]`: the matched text, or nothing when `match` gives `null`. */
  function JsonSpan(text: string): (r: Option<string>)
    ensures r.None? <==> forall i, j :: !MatchSpan(text, i, j)
    ensures r.Some? ==> 2 <= |r.value| && r.value[0] == '{' && r.value[|r.value| - 1] == '}'
  {
    match SpanBounds(text)
    case None => None
    case Some((i, j)) => Some(text[i..j])
  }

  /** A JSON object set in prose that has no `{` before it and no `}` after it is cut out exactly. */
  lemma SpanOfEmbeddedObject(before: string, obj: string, after: string)
    requires '{' !in before && '}' !in after
    requires 2 <= |obj| && obj[0] == '{' && obj[|obj| - 1] == '}'
    ensures JsonSpan(before + obj + after) == Some(obj)
  {
    var text := before + obj + after;
    var i, j := |before|, |before| + |obj|;
    assert MatchSpan(text, i, j);
    assert text[i..j] == obj;
  }

  /** Two objects in one reply are taken together with the prose between them, which is then not one JSON value. */
  lemma SpanJoinsTwoObjects()
    ensures JsonSpan("{\"a\":1} and {\"b\":2}") == Some("{\"a\":1} and {\"b\":2}")
  {
    SpanOfEmbeddedObject("", "{\"a\":1} and {\"b\":2}", "");
    assert "" + "{\"a\":1} and {\"b\":2}" + "" == "{\"a\":1} and {\"b\":2}";
  }

  /**
   What both routes do with the model's answer: cut out the span, hand it to
   `JSON.parse` (`parse`), and answer with the parsed value; every failure on
   the way (the model's error, no span, a span that does not parse) is caught
   and answered with a 500 carrying `failure`.
   */
  function JsonReply(g: Generation, parse: string -> Body, failure: string): (r: Response)
    ensures r.status == 200 <==>
              g.Generated? && JsonSpan(g.text).Some? && parse(JsonSpan(g.text).value).Parsed?
    ensures r.status == 200 ==> r.payload == Data(parse(JsonSpan(g.text).value).value)
    ensures r.status != 200 ==> r == Fail(500, failure)
  {
    match g
    case GenerationFailed(_, _) => Fail(500, failure)
    case Generated(text) =>
      match JsonSpan(text)
      case None => Fail(500, failure)
      case Some(span) =>
        match parse(span)
        case Malformed(_) => Fail(500, failure)
        case Parsed(data) => Ok(Data(data))
  }

  /** Text with no `{` or no `}` in it never yields data. */
  lemma NoBracesNoData(text: string, parse: string -> Body, failure: string)
    requires '{' !in text || '}' !in text
    ensures JsonReply(Generated(text), parse, failure) == Fail(500, failure)
  {}
}

/** The code-generation route (`src/app/api/generate/route.ts`). */
module GenerateRoute {
  import opened Js
  import opened Api
  import Strings
  import JsonExtract

  const FAILED := "Failed to generate code"

  /** The instruction lines of the prompt, up to the line before the requirements. */
  const PROMPT_LINES: seq<string> := [
    "あなたはコード生成の専門家です。以下の要件に基づいて、必要なファイルとディレクトリ構造を生成してください。",
    "生成するコードは実際に動作する必要があります。",
    "",
    "応答は以下のJSON形式で返してください：",
    "{",
    "  \"files\": [",
    "    {",
    "      \"name\": \"ファイル名\",",
    "      \"type\": \"file\",",
    "      \"content\": \"ファイルの内容\"",
    "    },",
    "    {",
    "      \"name\": \"ディレクトリ名\",",
    "      \"type\": \"directory\",",
    "      \"children\": [",
    "        {",
    "          \"name\": \"サブファイル名\",",
    "          \"type\": \"file\",",
    "          \"content\": \"ファイルの内容\"",
    "        }",
    "      ]",
    "    }",
    "  ]",
    "}",
    "",
    "要件："]

  /** Everything of the prompt before the requirements: a line break, then the instruction lines, each ended by one. */
  const PROMPT_INTRO := "\n" + Strings.Join(PROMPT_LINES, "\n") + "\n"

  /** The prompt sent to the model for the requirements `${prompt}`. */
  function SystemPrompt(requirements: string): string {
    PROMPT_INTRO + requirements + "\n"
  }

  /**
   `POST`: the body's `prompt` goes into the instructions unchecked (an absent
   one prints as "undefined"); a body that is not JSON, or is `null`, throws
   before that and is answered like any other failure. `generate` stands for
   the model and `parse` for `JSON.parse`.
   */
  function Post(body: Body, generate: string -> Generation, parse: string -> Body): (r: Response)
    ensures r.status in {200, 500}
    ensures r.status == 500 ==> r == Fail(500, FAILED)
    ensures r.status == 200 ==>
              && body.Parsed? && !Nullish(body.value)
              && r == JsonExtract.JsonReply(generate(SystemPrompt(ToStr(Member(body.value, "prompt")))), parse, FAILED)
    ensures body.Malformed? || Nullish(body.value) ==> r == Fail(500, FAILED)
    ensures body.Parsed? && !Nullish(body.value) ==>
              r == JsonExtract.JsonReply(generate(SystemPrompt(ToStr(Member(body.value, "prompt")))), parse, FAILED)
  {
    match body
    case Malformed(_) => Fail(500, FAILED)
    case Parsed(v) =>
      if Nullish(v) then Fail(500, FAILED)
      else JsonExtract.JsonReply(generate(SystemPrompt(ToStr(Member(v, "prompt")))), parse, FAILED)
  }

  /** The requirements reach the model whole: different requirements give different prompts. */
  lemma PromptKeepsRequirements(a: string, b: string)
    requires SystemPrompt(a) == SystemPrompt(b)
    ensures a == b
  {
    Strings.Enclosed(PROMPT_INTRO, a, b, "\n");
  }

  /** A request whose answer holds one JSON object set in prose gets that object, parsed, back. */
  lemma ObjectReturned(v: Value, generate: string -> Generation, parse: string -> Body,
                       before: string, obj: string, after: string)
    requires !Nullish(v)
    requires generate(SystemPrompt(ToStr(Member(v, "prompt")))) == Generated(before + obj + after)
    requires '{' !in before && '}' !in after
    requires 2 <= |obj| && obj[0] == '{' && obj[|obj| - 1] == '}'
    requires parse(obj).Parsed?
    ensures Post(Parsed(v), generate, parse) == Ok(Data(parse(obj).value))
  {
    JsonExtract.SpanOfEmbeddedObject(before, obj, after);
  }
}

/** The preview route (`src/app/api/preview/route.ts`). */
module PreviewRoute {
  import opened Js
  import opened Api
  import Strings
  import JsonExtract

  const REQUIRED := "Code and language are required"
  const FAILED := "Failed to generate preview"

  /** The first instruction line, then the label before the language. */
  const PROMPT_HEAD := "\n以下のコードを実行可能なHTML/CSS/JavaScriptに変換してください。\nコードの言語: "
  /** Between the language and the code. */
  const PROMPT_MID := "\nコード:\n"
  /** The lines after the code, describing the JSON wanted. */
  const PROMPT_TAIL_LINES: seq<string> := [
    "",
    "",
    "以下の形式でJSONを返してください：",
    "{",
    "  \"files\": {",
    "    \"index.html\": \"HTMLコード\",",
    "    \"styles.css\": \"CSSコード\",",
    "    \"index.js\": \"JavaScriptコード\"",
    "  },",
    "  \"dependencies\": {",
    "    \"パッケージ名\": \"CDNのURL\"",
    "  }",
    "}",
    ""]

  /** The prompt for `${language}` and `${code}`. */
  function PreviewPrompt(language: string, code: string): string {
    PROMPT_HEAD + language + PROMPT_MID + code + Strings.Join(PROMPT_TAIL_LINES, "\n")
  }

  /** The 400 check: both `code` and `language` must be truthy. */
  predicate HasCodeAndLanguage(v: Value) {
    Truthy(Member(v, "code")) && Truthy(Member(v, "language"))
  }

  /**
   `POST`: 400 unless the body has a truthy `code` and `language`; otherwise
   both are printed into the prompt and the model's answer goes through the
   JSON extraction. A body that is not JSON, or is `null`, throws and is
   answered like any other failure. `generate` stands for the model and
   `parse` for `JSON.parse`.
   */
  function Post(body: Body, generate: string -> Generation, parse: string -> Body): (r: Response)
    ensures r.status in {200, 400, 500}
    ensures r.status == 400 <==> body.Parsed? && !Nullish(body.value) && !HasCodeAndLanguage(body.value)
    ensures r.status == 400 ==> r == Fail(400, REQUIRED)
    ensures r.status == 500 ==> r == Fail(500, FAILED)
    ensures r.status == 200 ==>
              && body.Parsed? && HasCodeAndLanguage(body.value)
              && r == JsonExtract.JsonReply(
                        generate(PreviewPrompt(ToStr(Member(body.value, "language")), ToStr(Member(body.value, "code")))),
                        parse, FAILED)
    ensures body.Malformed? || Nullish(body.value) ==> r == Fail(500, FAILED)
    ensures body.Parsed? && !Nullish(body.value) && HasCodeAndLanguage(body.value) ==>
              r == JsonExtract.JsonReply(
                     generate(PreviewPrompt(ToStr(Member(body.value, "language")), ToStr(Member(body.value, "code")))),
                     parse, FAILED)
  {
    match body
    case Malformed(_) => Fail(500, FAILED)
    case Parsed(v) =>
      if Nullish(v) then Fail(500, FAILED)
      else if !HasCodeAndLanguage(v) then Fail(400, REQUIRED)
      else
        var prompt := PreviewPrompt(ToStr(Member(v, "language")), ToStr(Member(v, "code")));
        JsonExtract.JsonReply(generate(prompt), parse, FAILED)
  }

  /** The model is asked only when both fields are there: a 400 is the same whatever it or the parser would do. */
  lemma ModelOnlyForValid(v: Value, g1: string -> Generation, g2: string -> Generation,
                          p1: string -> Body, p2: string -> Body)
    requires !HasCodeAndLanguage(v)
    ensures Post(Parsed(v), g1, p1) == Post(Parsed(v), g2, p2)
    ensures !Nullish(v) ==> Post(Parsed(v), g1, p1) == Fail(400, REQUIRED)
  {}

  /**
   A request with code and language whose answer holds a `{…}` span that
   parses gets the parsed value back with a 200; any other answer gets the
   fixed 500.
   */
  lemma PreviewReturned(v: Value, generate: string -> Generation, parse: string -> Body)
    requires !Nullish(v) && HasCodeAndLanguage(v)
    ensures var g := generate(PreviewPrompt(ToStr(Member(v, "language")), ToStr(Member(v, "code"))));
      && (Post(Parsed(v), generate, parse).status == 200 <==>
            g.Generated? && JsonExtract.JsonSpan(g.text).Some? && parse(JsonExtract.JsonSpan(g.text).value).Parsed?)
      && (Post(Parsed(v), generate, parse).status == 200 ==>
            Post(Parsed(v), generate, parse) == Ok(Data(parse(JsonExtract.JsonSpan(g.text).value).value)))
      && (Post(Parsed(v), generate, parse).status != 200 ==> Post(Parsed(v), generate, parse) == Fail(500, FAILED))
  {}

  /** The code reaches the model whole: for one language, different code gives different prompts. */
  lemma PromptKeepsCode(language: string, a: string, b: string)
    requires PreviewPrompt(language, a) == PreviewPrompt(language, b)
    ensures a == b
  {
    Strings.Enclosed(PROMPT_HEAD + language + PROMPT_MID, a, b, Strings.Join(PROMPT_TAIL_LINES, "\n"));
  }
}

=== FILE: js.dfy ===
/**
 JavaScript values as the API routes see them after `await req.json()`, and the
 three language rules the routes lean on: truthiness (`!x`), property reads on
 a destructured body, and the string conversion a template literal `${x}`
 applies.
 */
module Js {
  import Strings

  /** A JSON value, plus `undefined` for a property that is absent. JSON numbers are taken to be integers. */
  datatype Value =
    | Undefined
    | Null
    | Bool(b: bool)
    | Num(n: int)
    | Str(s: string)
    | Arr(elems: seq<Value>)
    | Obj(props: map<string, Value>)

  /** What `await req.json()` produced: a value, or a thrown SyntaxError with its message. */
  datatype Body = Parsed(value: Value) | Malformed(message: string)

  /** ToBoolean: the values for which `!x` is false. */
  predicate Truthy(v: Value) {
    match v
    case Undefined => false
    case Null => false
    case Bool(b) => b
    case Num(n) => n != 0
    case Str(s) => s != ""
    case Arr(_) => true
    case Obj(_) => true
  }

  /** Reading a property of `null` or `undefined` throws a TypeError. */
  predicate Nullish(v: Value) {
    v.Null? || v.Undefined?
  }

  /** `v.key` on a value that is not nullish: only JSON objects carry the keys the routes read. */
  function Member(v: Value, key: string): Value {
    if v.Obj? && key in v.props then v.props[key] else Undefined
  }

  /**
   `Number.MAX_SAFE_INTEGER`, 2^53 - 1. Up to it every integer is a number
   value of its own, and `${n}` prints its decimal digits; beyond, a JSON
   integer is rounded and large ones print in exponent form.
   */
  const MAX_SAFE_INTEGER: nat := 9007199254740991

  /** Decimal digits of a natural number. */
  function NatToDecimal(n: nat): string
    decreases n
  {
    var d := [(n % 10) as char + '0'];
    if n < 10 then d else NatToDecimal(n / 10) + d
  }

  /** ToString as applied by `${x}`: arrays join their elements with "," (nullish elements print as ""). */
  function ToStr(v: Value): string
    decreases v
  {
    match v
    case Undefined => "undefined"
    case Null => "null"
    case Bool(b) => if b then "true" else "false"
    case Num(n) => if n < 0 then "-" + NatToDecimal(-n) else NatToDecimal(n)
    case Str(s) => s
    case Arr(es) =>
      Strings.Join(seq(|es|, i requires 0 <= i < |es| => if Nullish(es[i]) then "" else ToStr(es[i])), ",")
    case Obj(_) => "[object Object]"
  }
}

/** The JSON responses the API routes return, and what the text-generation service can answer. */
module Api {
  import Js

  /** The JSON body of a response. */
  datatype Payload =
    | Error(error: string)
    | Output(output: string)
    | ChatReply(content: string, metadataType: string)
    | Data(data: Js.Value)

  /** `NextResponse.json(payload, {status})`; the status defaults to 200. */
  datatype Response = Response(status: nat, payload: Payload)

  function Fail(status: nat, message: string): Response {
    Response(status, Error(message))
  }

  function Ok(payload: Payload): Response {
    Response(200, payload)
  }

  /**
   The outcome of `model.generateContent(prompt)` followed by `response.text()`:
   either the generated text, or a thrown error with its `message` and its
   `response.data.error` (each "" when absent or falsy).
   */
  datatype Generation = Generated(text: string) | GenerationFailed(message: string, detail: string)
}

=== FILE: message.dfy ===
/**
 The chat message view's code-block segmenter. `parseCodeBlocks` runs the
 global regular expression /```(\w+)?\n([\s\S]*?)```/g over a message and
 returns, in order, the text between matches and one code block per match;
 `isCommand` decides whether a block gets a run button, and the preview tab
 hands the block to the sandbox under a file name chosen by its language.

 The regular expression is written out by hand: `MatchAt` is an attempt at one
 start position, `Exec` is `regex.exec` from `lastIndex` (the leftmost
 successful start), `Scan` is the loop at token level, keeping the raw fence
 text so that tiling can be stated, and `Parse` maps tokens to the parts the
 view renders.
 */
module Message {
  import opened Optional
  import opened Strings
  import Sandbox

  const FENCE: string := "```"

  /** "```" starts at index `i` of `s`. */
  predicate FenceAt(s: string, i: int) {
    0 <= i && i + 3 <= |s| && s[i] == '`' && s[i + 1] == '`' && s[i + 2] == '`'
  }

  lemma FenceAtIsOccurrence(s: string, i: int)
    ensures FenceAt(s, i) <==> OccursAt(s, FENCE, i)
  {
    if 0 <= i && i + 3 <= |s| {
      assert s[i..i + 3] == [s[i], s[i + 1], s[i + 2]];
    }
  }

  /** Inside a slice, a fence sits where it sits in the whole string. */
  lemma FenceAtSlice(s: string, a: nat, b: nat, k: int)
    requires a <= b <= |s|
    ensures FenceAt(s[a..b], k) <==> 0 <= k && a + k + 3 <= b && FenceAt(s, a + k)
  {}

  /** `\w` of a JavaScript regular expression without the `u` flag. */
  predicate IsWordChar(c: char) {
    ('a' <= c <= 'z') || ('A' <= c <= 'Z') || ('0' <= c <= '9') || c == '_'
  }

  predicate AllWord(w: string) {
    forall k :: 0 <= k < |w| ==> IsWordChar(w[k])
  }

  /**
   The characters `String.prototype.trim` strips: WhiteSpace and
   LineTerminator of ECMA-262 (sections 12.2 and 12.3), including every
   space separator of Unicode category Zs.
   */
  predicate IsWs(c: char) {
    c in {'\t', '\n', '\U{B}', '\U{C}', '\r', ' ', '\U{A0}', '\U{1680}',
          '\U{2028}', '\U{2029}', '\U{202F}', '\U{205F}', '\U{3000}', '\U{FEFF}'}
    || ('\U{2000}' <= c <= '\U{200A}')
  }

  /** The first index at or after `i` that does not hold whitespace, or `|s|` when there is none. */
  function SkipWs(s: string, i: nat): (j: nat)
    requires i <= |s|
    ensures i <= j <= |s|
    ensures forall k :: i <= k < j ==> IsWs(s[k])
    ensures j == |s| || !IsWs(s[j])
    decreases |s| - i
  {
    if i < |s| && IsWs(s[i]) then SkipWs(s, i + 1) else i
  }

  /** The first index at or before `j` from which only whitespace runs up to `j`. */
  function SkipWsBack(s: string, j: nat): (i: nat)
    requires j <= |s|
    ensures i <= j
    ensures forall k :: i <= k < j ==> IsWs(s[k])
    ensures i == 0 || !IsWs(s[i - 1])
    decreases j
  {
    if j > 0 && IsWs(s[j - 1]) then SkipWsBack(s, j - 1) else j
  }

  /** Drops leading whitespace: what is left starts at a non-space. */
  function TrimStart(s: string): (r: string)
    ensures |r| <= |s|
    ensures forall k :: 0 <= k < |s| - |r| ==> IsWs(s[k])
    ensures r == [] || !IsWs(r[0])
  {
    s[SkipWs(s, 0)..]
  }

  /** Drops trailing whitespace: what is left ends at a non-space. */
  function TrimEnd(s: string): (r: string)
    ensures |r| <= |s|
    ensures forall k :: |r| <= k < |s| ==> IsWs(s[k])
    ensures r == [] || !IsWs(r[|r| - 1])
  {
    s[..SkipWsBack(s, |s|)]
  }

  /** `s.trim()`. */
  function Trim(s: string): string {
    TrimEnd(TrimStart(s))
  }

  /** Length of the run of word characters starting at `i`: how far the greedy `(\w+)?` reaches. */
  function WordRun(s: string, i: nat): (n: nat)
    requires i <= |s|
    ensures i + n <= |s|
    ensures i + n == |s| || !IsWordChar(s[i + n])
    decreases |s| - i
  {
    if i < |s| && IsWordChar(s[i]) then 1 + WordRun(s, i + 1) else 0
  }

  /** Every character of the run is a word character. */
  lemma {:induction false} WordRunWord(s: string, i: nat)
    requires i <= |s|
    ensures forall k :: i <= k < i + WordRun(s, i) ==> IsWordChar(s[k])
    decreases |s| - i
  {
    if i < |s| && IsWordChar(s[i]) {
      WordRunWord(s, i + 1);
    }
  }

  /**
   The lazy `([\s\S]*?)```: the first "```" at or after `from`. This is
   `Strings.IndexOfFrom(s, FENCE, from)` (`FindFenceIsIndexOf`), spelled with
   three character tests instead of a slice comparison, which keeps the proofs
   about matches small.
   */
  function FindFence(s: string, from: nat): (r: Option<nat>)
    ensures r.Some? ==> from <= r.value && FenceAt(s, r.value)
    decreases |s| - from
  {
    if from + 3 > |s| then None
    else if FenceAt(s, from) then Some(from)
    else FindFence(s, from + 1)
  }

  /** The search stops at the first fence: there is none between `from` and the one found, nor after `from` when none is found. */
  lemma {:induction false} FindFenceLeftmost(s: string, from: nat)
    ensures var r := FindFence(s, from);
      forall k :: from <= k && (r.None? || k < r.value) ==> !FenceAt(s, k)
    decreases |s| - from
  {
    if from + 3 <= |s| && !FenceAt(s, from) {
      FindFenceLeftmost(s, from + 1);
    }
  }

  /** The fence search is `indexOf("```", from)`. */
  lemma {:induction false} FindFenceIsIndexOf(s: string, from: nat)
    ensures FindFence(s, from) == IndexOfFrom(s, FENCE, from)
    decreases |s| - from
  {
    FenceAtIsOccurrence(s, from);
    if from + 3 <= |s| && !FenceAt(s, from) {
      FindFenceIsIndexOf(s, from + 1);
    }
  }

  /** The search finds a fence no later than any known one. */
  lemma FindFenceFinds(s: string, from: nat, c: nat)
    requires from <= c && FenceAt(s, c)
    ensures FindFence(s, from).Some? && FindFence(s, from).value <= c
  {
    FindFenceLeftmost(s, from);
  }

  /** The search finds a known fence when none lies between `from` and it. */
  lemma FindFenceExact(s: string, from: nat, c: nat)
    requires from <= c && FenceAt(s, c)
    requires forall k :: from <= k < c ==> !FenceAt(s, k)
    ensures FindFence(s, from) == Some(c)
  {
    FindFenceLeftmost(s, from);
  }

  /**
   One match, by position: the opening "```" at `start`, the newline that
   ends the info word at `newline`, the closing "```" at `close`. Group 1 is
   `s[start + 3..newline]`, group 2 is `s[newline + 1..close]`, and
   `regex.lastIndex` becomes `close + 3`.
   */
  datatype FenceMatch = FenceMatch(start: nat, newline: nat, close: nat)

  predicate ValidIn(s: string, m: FenceMatch) {
    m.start + 3 <= m.newline < m.close && m.close + 3 <= |s|
  }

  /** `match[1]`, "" when the group did not take part. */
  function Info(s: string, m: FenceMatch): string
    requires ValidIn(s, m)
  {
    s[m.start + 3..m.newline]
  }

  /** `match[2]`. */
  function Body(s: string, m: FenceMatch): string
    requires ValidIn(s, m)
  {
    s[m.newline + 1..m.close]
  }

  /**
   The regular expression tried at start position `i`. `(\w+)?` is greedy and
   may backtrack, but every shorter choice is followed by a word character
   instead of the newline, so only the full run can succeed; the lazy body
   stops at the first "```" after the newline.
   */
  function MatchAt(s: string, i: nat): (r: Option<FenceMatch>)
    ensures r.Some? ==> r.value.start == i && ValidIn(s, r.value)
  {
    if !FenceAt(s, i) then None
    else
      var q := i + 3 + WordRun(s, i + 3);
      if q < |s| && s[q] == '\n' then
        match FindFence(s, q + 1)
        case None => None
        case Some(j) => Some(FenceMatch(i, q, j))
      else None
  }

  /** `regex.exec(s)` with `regex.lastIndex == from`: the match with the leftmost start at or after `from`. */
  function Exec(s: string, from: nat): (r: Option<FenceMatch>)
    ensures r.Some? ==> from <= r.value.start && ValidIn(s, r.value)
    decreases |s| - from, 1
  {
    if from >= |s| then None else Attempt(s, from)
  }

  /** One attempt at `from`, then the next start. */
  function Attempt(s: string, from: nat): (r: Option<FenceMatch>)
    requires from < |s|
    ensures r.Some? ==> from <= r.value.start && ValidIn(s, r.value)
    decreases |s| - from, 0
  {
    if MatchAt(s, from).Some? then MatchAt(s, from) else Exec(s, from + 1)
  }

  /** `regex.exec` finds the leftmost match: the regular expression fails at every start it skips. */
  lemma {:induction false} ExecLeftmost(s: string, from: nat)
    ensures var r := Exec(s, from);
      forall k :: from <= k && (r.None? || k < r.value.start) ==> MatchAt(s, k).None?
    decreases |s| - from
  {
    if from < |s| && MatchAt(s, from).None? {
      ExecLeftmost(s, from + 1);
      assert Exec(s, from) == Exec(s, from + 1);
    }
  }

  /** Conversely, when the regular expression fails at every start from `from` on, `regex.exec` returns null. */
  lemma {:induction false} ExecNone(s: string, from: nat)
    requires forall k :: from <= k < |s| ==> MatchAt(s, k).None?
    ensures Exec(s, from).None?
    decreases |s| - from
  {
    if from < |s| {
      ExecNone(s, from + 1);
    }
  }

  /** What `regex.exec` returns is the attempt at the start it reports. */
  lemma {:induction false} ExecMatch(s: string, from: nat)
    requires Exec(s, from).Some?
    ensures MatchAt(s, Exec(s, from).value.start) == Exec(s, from)
    decreases |s| - from
  {
    if MatchAt(s, from).None? {
      ExecMatch(s, from + 1);
      assert Exec(s, from) == Exec(s, from + 1);
    }
  }

  /** A piece of the message as the scan cuts it: plain text, or a whole fence with its raw info word and body. */
  datatype Token = Plain(text: string) | Fenced(info: string, body: string)

  /** The characters of the message a token stands for. */
  function Raw(t: Token): string {
    match t
    case Plain(x) => x
    case Fenced(info, body) => FENCE + info + "\n" + body + FENCE
  }

  function Concat(ts: seq<Token>): string {
    if |ts| == 0 then "" else Raw(ts[0]) + Concat(ts[1..])
  }

  /** The token a match stands for. */
  function MatchToken(s: string, m: FenceMatch): Token
    requires ValidIn(s, m)
  {
    Fenced(Info(s, m), Body(s, m))
  }

  /** The text from `from` up to `a` as a token, when there is any. */
  function PlainBefore(s: string, from: nat, a: nat): seq<Token>
    requires from <= a <= |s|
  {
    if from < a then [Plain(s[from..a])] else []
  }

  /** The `while ((match = regex.exec(content)) !== null)` loop from `lastIndex == from`, at token level. */
  function Scan(s: string, from: nat): seq<Token>
    requires from <= |s|
    decreases |s| - from, 1
  {
    match Exec(s, from)
    case None => if from < |s| then [Plain(s[from..])] else []
    case Some(m) => ScanRound(s, from, m)
  }

  /** One round of the loop: the text before the match, the match, then the loop from `regex.lastIndex`. */
  function ScanRound(s: string, from: nat, m: FenceMatch): seq<Token>
    requires from <= m.start && ValidIn(s, m)
    decreases |s| - from, 0
  {
    PlainBefore(s, from, m.start) + ([MatchToken(s, m)] + Scan(s, m.close + 3))
  }

  /** What the view renders: a text part, or a code block `{language, content}`. */
  datatype Part = Text(text: string) | Code(language: string, content: string)

  /** The language the view shows: `match[1] || "plaintext"`. */
  function Language(info: string): string {
    if info == "" then "plaintext" else info
  }

  /** A text token is pushed as is; a fence becomes `{language: match[1] || "plaintext", content: match[2].trim()}`. */
  function ToPart(t: Token): Part {
    match t
    case Plain(x) => Text(x)
    case Fenced(info, body) => Code(Language(info), Trim(body))
  }

  function Parts(ts: seq<Token>): (ps: seq<Part>)
    ensures |ps| == |ts|
  {
    if |ts| == 0 then [] else [ToPart(ts[0])] + Parts(ts[1..])
  }

  /** The text from `from` up to `a` as a part, when there is any. */
  function TextBefore(s: string, from: nat, a: nat): seq<Part>
    requires from <= a <= |s|
  {
    if from < a then [Text(s[from..a])] else []
  }

  /** The block the view renders for a match. */
  function BlockOf(s: string, m: FenceMatch): Part
    requires ValidIn(s, m)
  {
    Code(Language(Info(s, m)), Trim(Body(s, m)))
  }

  /** `parseCodeBlocks(content)`, as a function. */
  function Parse(s: string): seq<Part> {
    Parts(Scan(s, 0))
  }

  lemma PartsBefore(s: string, from: nat, a: nat)
    requires from <= a <= |s|
    ensures Parts(PlainBefore(s, from, a)) == TextBefore(s, from, a)
  {
    if from < a {
      PartsCons(Plain(s[from..a]), []);
    }
  }

  /** The parts of a round: the text before its match, the match's block, then the parts of the loop after it. */
  lemma RoundParts(s: string, from: nat, m: FenceMatch)
    requires from <= m.start && ValidIn(s, m)
    ensures Parts(ScanRound(s, from, m)) == TextBefore(s, from, m.start) + ([BlockOf(s, m)] + Parts(Scan(s, m.close + 3)))
  {
    var tok := MatchToken(s, m);
    var pre := PlainBefore(s, from, m.start);
    var rest := Scan(s, m.close + 3);
    calc {
      Parts(pre + ([tok] + rest));
    == { PartsAppend(pre, [tok] + rest); }
      Parts(pre) + Parts([tok] + rest);
    == { PartsCons(tok, rest); PartsBefore(s, from, m.start); }
      TextBefore(s, from, m.start) + ([ToPart(tok)] + Parts(rest));
    }
  }

  /** One round of the loop, as parts: the text before the leftmost match, its block, then the parts from where it ended. */
  lemma PartsStep(s: string, from: nat, m: FenceMatch)
    requires from <= |s| && Exec(s, from) == Some(m)
    ensures Parts(Scan(s, from)) == TextBefore(s, from, m.start) + ([BlockOf(s, m)] + Parts(Scan(s, m.close + 3)))
  {
    RoundParts(s, from, m);
  }

  /**
   * The loop of `parseCodeBlocks`, run to the end from `lastIndex == from` with `parts` pushed so far,
   * finishes with `r`. Each round hands what `regex.exec` returned to `RoundYields`.
   */
  predicate LoopYields(s: string, from: nat, parts: seq<Part>, r: seq<Part>)
    requires from <= |s|
    decreases |s| - from, 1
  {
    RoundYields(s, from, Exec(s, from), parts, r)
  }

  /**
   * One round given the match `e`: with a match, push the text before it when there is any, then its
   * block, and go on after the closing fence; with none, push the rest of the message when it is not empty.
   */
  predicate RoundYields(s: string, from: nat, e: Option<FenceMatch>, parts: seq<Part>, r: seq<Part>)
    requires from <= |s| && (e.Some? ==> from <= e.value.start && ValidIn(s, e.value))
    decreases |s| - from, 0
  {
    match e
    case None => parts + TextBefore(s, from, |s|) == r
    case Some(m) => LoopYields(s, m.close + 3, parts + TextBefore(s, from, m.start) + [BlockOf(s, m)], r)
  }

  /** From `lastIndex == from` with `parts` pushed, the loop finishes with `r`: the loop's invariant. */
  predicate Pending(s: string, from: nat, parts: seq<Part>, r: seq<Part>)
    requires from <= |s|
  {
    LoopYields(s, from, parts, r)
  }

  /** A round that finds a match: what the loop finishes with after it, it finishes with before it. */
  lemma LoopStep(s: string, from: nat, m: FenceMatch, parts: seq<Part>, r: seq<Part>)
    requires from <= |s| && Exec(s, from) == Some(m)
    requires Pending(s, m.close + 3, parts + TextBefore(s, from, m.start) + [BlockOf(s, m)], r)
    ensures Pending(s, from, parts, r)
  {
    assert RoundYields(s, from, Some(m), parts, r);
  }

  /** A round of the loop keeps the invariant. */
  lemma LoopNext(s: string, from: nat, m: FenceMatch, parts: seq<Part>, r: seq<Part>)
    requires from <= |s| && Exec(s, from) == Some(m) && Pending(s, from, parts, r)
    ensures Pending(s, m.close + 3, parts + TextBefore(s, from, m.start) + [BlockOf(s, m)], r)
  {
    assert RoundYields(s, from, Some(m), parts, r);
  }

  /** After the last round, pushing the rest of the message, if any, gives what the loop finishes with. */
  lemma LoopLast(s: string, from: nat, parts: seq<Part>, r: seq<Part>)
    requires from <= |s| && Exec(s, from).None? && Pending(s, from, parts, r)
    ensures from < |s| ==> parts + [Text(s[from..])] == r
    ensures from >= |s| ==> parts == r
  {
    assert RoundYields(s, from, None, parts, r);
    if from < |s| {
      assert s[from..|s|] == s[from..];
    } else {
      assert parts + [] == parts;
    }
  }

  /** Conversely, a state with no match left finishes with the rest of the message pushed. */
  lemma LoopLastYields(s: string, from: nat, parts: seq<Part>)
    requires from <= |s| && Exec(s, from).None?
    ensures Pending(s, from, parts, parts + TextBefore(s, from, |s|))
  {
    assert RoundYields(s, from, None, parts, parts + TextBefore(s, from, |s|));
  }

  /** Running the loop from a state appends the parts of the scan from there. */
  predicate LoopScans(s: string, from: nat, parts: seq<Part>)
    requires from <= |s|
  {
    Pending(s, from, parts, parts + Parts(Scan(s, from)))
  }

  /** The last round pushes the rest of the message, as the scan does. */
  lemma LoopEnd(s: string, from: nat, parts: seq<Part>)
    requires from <= |s| && Exec(s, from).None?
    ensures LoopScans(s, from, parts)
  {
    LoopLastYields(s, from, parts);
    if from < |s| {
      PartsCons(Plain(s[from..]), []);
      assert Scan(s, from) == [Plain(s[from..])] + [];
      assert s[from..|s|] == s[from..];
    } else {
      assert parts + [] == parts;
    }
    LoopScansEq(s, from, parts, parts + TextBefore(s, from, |s|));
  }

  lemma {:induction false} LoopIsScan(s: string, from: nat, parts: seq<Part>)
    requires from <= |s|
    ensures LoopScans(s, from, parts)
    decreases |s| - from, 1
  {
    match Exec(s, from)
    case None => LoopEnd(s, from, parts);
    case Some(m) => LoopRound(s, from, m, parts);
  }

  lemma {:induction false} LoopRound(s: string, from: nat, m: FenceMatch, parts: seq<Part>)
    requires from <= |s| && Exec(s, from) == Some(m)
    ensures LoopScans(s, from, parts)
    decreases |s| - from, 0
  {
    LoopIsScan(s, m.close + 3, Pushed(s, from, m, parts));
    RoundScans(s, from, m, parts);
  }

  /** What a round that finds `m` has pushed: the text before the match, then its block. */
  function Pushed(s: string, from: nat, m: FenceMatch, parts: seq<Part>): (pushed: seq<Part>)
    requires from <= |s| && Exec(s, from) == Some(m)
    ensures |parts| < |pushed| && pushed[..|parts|] == parts && pushed[|pushed| - 1] == BlockOf(s, m)
  {
    parts + TextBefore(s, from, m.start) + [BlockOf(s, m)]
  }

  /** A round whose successor state runs on to the scan from there runs on to the scan from its own start. */
  lemma RoundScans(s: string, from: nat, m: FenceMatch, parts: seq<Part>)
    requires from <= |s| && Exec(s, from) == Some(m)
    requires LoopScans(s, m.close + 3, Pushed(s, from, m, parts))
    ensures LoopScans(s, from, parts)
  {
    var pushed := Pushed(s, from, m, parts);
    var r := pushed + Parts(Scan(s, m.close + 3));
    LoopStep(s, from, m, parts, r);
    PartsAfter(s, from, m, parts);
    LoopScansEq(s, from, parts, r);
  }

  lemma LoopScansEq(s: string, from: nat, parts: seq<Part>, r: seq<Part>)
    requires from <= |s| && Pending(s, from, parts, r) && parts + Parts(Scan(s, from)) == r
    ensures LoopScans(s, from, parts)
  {}

  /** The parts pushed before a round followed by the scan from its start are those pushed after it followed by the scan from its end. */
  lemma PartsAfter(s: string, from: nat, m: FenceMatch, parts: seq<Part>)
    requires from <= |s| && Exec(s, from) == Some(m)
    ensures parts + Parts(Scan(s, from))
         == parts + TextBefore(s, from, m.start) + [BlockOf(s, m)] + Parts(Scan(s, m.close + 3))
  {
    PartsStep(s, from, m);
    Assoc4(parts, TextBefore(s, from, m.start), [BlockOf(s, m)], Parts(Scan(s, m.close + 3)));
  }

  lemma Assoc4<T>(a: seq<T>, b: seq<T>, c: seq<T>, d: seq<T>)
    ensures a + (b + (c + d)) == a + b + c + d
  {}

  lemma EqTrans<T>(a: seq<T>, b: seq<T>, c: seq<T>)
    requires a == b && c == b
    ensures a == c
  {}

  /** The loop finishes with one result only: the parts pushed so far followed by the parts of the scan. */
  lemma {:induction false} LoopUnique(s: string, from: nat, parts: seq<Part>, r: seq<Part>)
    requires from <= |s| && Pending(s, from, parts, r)
    ensures r == parts + Parts(Scan(s, from))
    decreases |s| - from, 1
  {
    match Exec(s, from)
    case None => LoopUniqueLast(s, from, parts, r);
    case Some(m) => LoopUniqueRound(s, from, m, parts, r);
  }

  lemma LoopUniqueLast(s: string, from: nat, parts: seq<Part>, r: seq<Part>)
    requires from <= |s| && Exec(s, from).None? && Pending(s, from, parts, r)
    ensures r == parts + Parts(Scan(s, from))
  {
    LoopLast(s, from, parts, r);
    if from < |s| {
      PartsCons(Plain(s[from..]), []);
      assert Scan(s, from) == [Plain(s[from..])] + [];
    } else {
      assert parts + [] == parts;
    }
  }

  lemma {:induction false} LoopUniqueRound(s: string, from: nat, m: FenceMatch, parts: seq<Part>, r: seq<Part>)
    requires from <= |s| && Exec(s, from) == Some(m) && Pending(s, from, parts, r)
    ensures r == parts + Parts(Scan(s, from))
    decreases |s| - from, 0
  {
    var pushed := parts + TextBefore(s, from, m.start) + [BlockOf(s, m)];
    LoopNext(s, from, m, parts, r);
    LoopUnique(s, m.close + 3, pushed, r);
    PartsAfter(s, from, m, parts);
    EqTrans(r, pushed + Parts(Scan(s, m.close + 3)), parts + Parts(Scan(s, from)));
  }

  /** The loop started on the whole message with nothing pushed finishes with `Parse`, and with nothing else. */
  lemma LoopIsParse(s: string, r: seq<Part>)
    ensures Pending(s, 0, [], r) <==> r == Parse(s)
  {
    LoopIsScan(s, 0, []);
    assert [] + Parse(s) == Parse(s);
    if Pending(s, 0, [], r) {
      LoopUnique(s, 0, [], r);
    }
  }

  /** Before the first round the invariant holds, for `Parse`. */
  lemma LoopFirst(s: string)
    ensures Pending(s, 0, [], Parse(s))
  {
    LoopIsParse(s, Parse(s));
  }

  /** `parseCodeBlocks`, written as the loop of the source. */
  method ParseCodeBlocks(content: string) returns (parts: seq<Part>)
    ensures parts == Parse(content)
  {
    ghost var result := Parse(content);
    LoopFirst(content);
    parts := [];
    var lastIndex: nat := 0;
    var m := Exec(content, 0);
    while m.Some?
      invariant lastIndex <= |content| && m == Exec(content, lastIndex)
      invariant Pending(content, lastIndex, parts, result)
      decreases |content| - lastIndex
    {
      var found := m.value;
      LoopNext(content, lastIndex, found, parts, result);
      parts := parts + TextBefore(content, lastIndex, found.start) + [BlockOf(content, found)];
      lastIndex := found.close + 3;
      m := Exec(content, lastIndex);
    }
    LoopLast(content, lastIndex, parts, result);
    if lastIndex < |content| {
      parts := parts + [Text(content[lastIndex..])];
    }
  }

  /** `isCommand(content)`: the block starts with "$" or ">". */
  predicate IsCommand(content: string) {
    "$" <= content || ">" <= content
  }

  /** The `files` the preview tab passes to the sandbox for a code block. */
  function SandboxFiles(language: string, content: string): (files: map<string, string>)
    ensures files.Keys == {"index.html", "styles.css", "script.js"}
    ensures files["index.html"] != "" ==> language == "html"
    ensures files["styles.css"] != "" ==> language == "css"
    ensures files["script.js"] != "" ==> language == "javascript" || language == "js"
    ensures forall key :: key in files ==> files[key] == "" || files[key] == content
    ensures language == "html" ==> files["index.html"] == content
    ensures language == "css" ==> files["styles.css"] == content
    ensures language == "javascript" || language == "js" ==> files["script.js"] == content
  {
    map["index.html" := if language == "html" then content else "",
        "styles.css" := if language == "css" then content else "",
        "script.js" := if language == "javascript" || language == "js" then content else ""]
  }

  // ---------------------------------------------------------------------
  // Properties of the scan

  /** Every token cut by the scan is well formed, and text tokens are never empty nor adjacent. */
  predicate WellFormed(ts: seq<Token>) {
    && (forall k :: 0 <= k < |ts| && ts[k].Plain? ==> ts[k].text != "")
    && (forall k :: 0 <= k < |ts| - 1 && ts[k].Plain? ==> ts[k + 1].Fenced?)
    && (forall k :: 0 <= k < |ts| && ts[k].Fenced? ==> AllWord(ts[k].info) && ClosesFirst(ts[k].body))
  }

  /** The body ends at the first "```" after it starts: no fence begins inside it. */
  predicate ClosesFirst(body: string) {
    forall k :: 0 <= k < |body| ==> !FenceAt(body + FENCE, k)
  }

  lemma PartsCons(t: Token, ts: seq<Token>)
    ensures Parts([t] + ts) == [ToPart(t)] + Parts(ts)
  {
    assert ([t] + ts)[1..] == ts;
  }

  lemma {:induction false} PartsAppend(a: seq<Token>, b: seq<Token>)
    ensures Parts(a + b) == Parts(a) + Parts(b)
    decreases |a|
  {
    if |a| == 0 {
      assert a + b == b;
    } else {
      assert (a + b)[1..] == a[1..] + b;
      PartsAppend(a[1..], b);
    }
  }

  /** The parts are the tokens' images, index by index. */
  lemma {:induction false} PartsIndex(ts: seq<Token>, k: nat)
    requires k < |ts|
    ensures Parts(ts)[k] == ToPart(ts[k])
    decreases k
  {
    if k > 0 {
      PartsIndex(ts[1..], k - 1);
    }
  }

  lemma {:induction false} ConcatAppend(a: seq<Token>, b: seq<Token>)
    ensures Concat(a + b) == Concat(a) + Concat(b)
    decreases |a|
  {
    if |a| == 0 {
      assert a + b == b;
    } else {
      assert (a + b)[1..] == a[1..] + b;
      ConcatAppend(a[1..], b);
    }
  }

  /** What a successful attempt at `i` found: "```" at `i`, a word-only info up to a newline, and the first "```" after it. */
  lemma MatchAtPieces(s: string, i: nat)
    requires MatchAt(s, i).Some?
    ensures var m := MatchAt(s, i).value;
      && FenceAt(s, i)
      && AllWord(Info(s, m))
      && s[m.newline] == '\n'
      && FenceAt(s, m.close)
      && (forall k :: m.newline + 1 <= k < m.close ==> !FenceAt(s, k))
  {
    var q := i + 3 + WordRun(s, i + 3);
    WordRunWord(s, i + 3);
    WordSlice(s, i + 3, q);
    FindFenceLeftmost(s, q + 1);
  }

  /** A stretch of word characters is a word. */
  lemma WordSlice(s: string, a: nat, b: nat)
    requires a <= b <= |s|
    requires forall k :: a <= k < b ==> IsWordChar(s[k])
    ensures AllWord(s[a..b])
  {
    forall k | 0 <= k < b - a
      ensures IsWordChar(s[a..b][k])
    {
      assert s[a..b][k] == s[a + k];
    }
  }

  /** The message between the two fences of a match spells the fence token. */
  lemma RawOfMatch(s: string, m: FenceMatch)
    requires ValidIn(s, m) && FenceAt(s, m.start) && s[m.newline] == '\n' && FenceAt(s, m.close)
    ensures s[m.start..m.close + 3] == Raw(MatchToken(s, m))
  {
    var a, q, j, e := m.start, m.newline, m.close, m.close + 3;
    var info, body := Info(s, m), Body(s, m);
    assert s[a..a + 3] == FENCE by {
      FenceAtIsOccurrence(s, a);
    }
    assert s[j..e] == FENCE by {
      FenceAtIsOccurrence(s, j);
    }
    assert s[q..q + 1] == "\n";
    SliceConcat(s, a, a + 3, q);
    assert s[a..q] == FENCE + info;
    SliceConcat(s, a, q, q + 1);
    assert s[a..q + 1] == FENCE + info + "\n";
    SliceConcat(s, a, q + 1, j);
    assert s[a..j] == FENCE + info + "\n" + body;
    SliceConcat(s, a, j, e);
  }

  /** The body of a match followed by "```" is a stretch of the message; it closes first exactly when no fence starts inside it. */
  lemma ClosesFirstInMessage(s: string, a: nat, body: string)
    requires OccursAt(s, body + FENCE, a)
    ensures ClosesFirst(body) <==> forall k :: a <= k < a + |body| ==> !FenceAt(s, k)
  {
    var e := a + |body| + 3;
    forall k | 0 <= k < |body|
      ensures FenceAt(body + FENCE, k) <==> FenceAt(s, a + k)
    {
      FenceAtSlice(s, a, e, k);
    }
    if !ClosesFirst(body) {
      var k :| 0 <= k < |body| && FenceAt(body + FENCE, k);
      assert FenceAt(s, a + k);
    }
    if ClosesFirst(body) {
      forall k | a <= k < a + |body|
        ensures !FenceAt(s, k)
      {
        assert !FenceAt(body + FENCE, k - a);
      }
    }
  }

  /** The info of a match is a word and its body closes at the first "```". */
  lemma MatchAtShape(s: string, i: nat)
    requires MatchAt(s, i).Some?
    ensures AllWord(Info(s, MatchAt(s, i).value)) && ClosesFirst(Body(s, MatchAt(s, i).value))
  {
    MatchAtPieces(s, i);
    var m := MatchAt(s, i).value;
    var body := Body(s, m);
    assert s[m.close..m.close + 3] == FENCE by {
      FenceAtIsOccurrence(s, m.close);
    }
    SliceConcat(s, m.newline + 1, m.close, m.close + 3);
    ClosesFirstInMessage(s, m.newline + 1, body);
  }

  /** The message from the start of a match to the end of its closing fence spells the fence token. */
  lemma MatchAtSpells(s: string, i: nat)
    requires MatchAt(s, i).Some?
    ensures s[i..MatchAt(s, i).value.close + 3] == Raw(MatchToken(s, MatchAt(s, i).value))
  {
    MatchAtPieces(s, i);
    RawOfMatch(s, MatchAt(s, i).value);
  }

  /** The match `regex.exec` returns spells its fence token in the message. */
  lemma ExecSpells(s: string, from: nat, m: FenceMatch)
    requires Exec(s, from) == Some(m)
    ensures s[m.start..m.close + 3] == Raw(MatchToken(s, m))
  {
    ExecMatch(s, from);
    MatchAtSpells(s, m.start);
  }

  /** The match `regex.exec` returns has a word for info and a body closing at the first "```". */
  lemma ExecShape(s: string, from: nat, m: FenceMatch)
    requires Exec(s, from) == Some(m)
    ensures AllWord(Info(s, m)) && ClosesFirst(Body(s, m))
  {
    ExecMatch(s, from);
    MatchAtShape(s, m.start);
  }

  /** A match is exactly a fence in the message: "```", a word-only info, a newline, a body with no earlier "```", "```". */
  lemma MatchAtSound(s: string, i: nat)
    requires MatchAt(s, i).Some?
    ensures var m := MatchAt(s, i).value;
      && s[i..m.close + 3] == Raw(MatchToken(s, m))
      && AllWord(Info(s, m))
      && ClosesFirst(Body(s, m))
  {
    MatchAtSpells(s, i);
    MatchAtShape(s, i);
  }

  /** The greedy word run from `a` stops at `q` when every character before `q` is a word character and the one at `q` is not. */
  lemma {:induction false} WordRunTo(s: string, a: nat, q: nat)
    requires a <= q < |s| && !IsWordChar(s[q])
    requires forall k :: a <= k < q ==> IsWordChar(s[k])
    ensures WordRun(s, a) == q - a
    decreases q - a
  {
    if a < q {
      WordRunTo(s, a + 1, q);
    }
  }

  /** At a fence whose info word ends at a newline, the attempt succeeds exactly when a "```" follows the newline, and closes at the first one. */
  lemma MatchAtOpening(s: string, i: nat, q: nat)
    requires FenceAt(s, i) && i + 3 <= q < |s| && s[q] == '\n'
    requires forall k :: i + 3 <= k < q ==> IsWordChar(s[k])
    ensures FindFence(s, q + 1).None? ==> MatchAt(s, i).None?
    ensures FindFence(s, q + 1).Some? ==> MatchAt(s, i) == Some(FenceMatch(i, q, FindFence(s, q + 1).value))
  {
    WordRunTo(s, i + 3, q);
  }

  /** A fence token found in the message, piece by piece. */
  lemma PiecesOfRaw(s: string, i: nat, w: string, b: string)
    requires OccursAt(s, Raw(Fenced(w, b)), i)
    ensures var q := i + 3 + |w|;
      && FenceAt(s, i)
      && OccursAt(s, w, i + 3)
      && q < |s| && s[q] == '\n'
      && OccursAt(s, b + FENCE, q + 1)
  {
    var q := i + 3 + |w|;
    OccursSplit(s, FENCE + w + "\n" + b, FENCE, i);
    OccursSplit(s, FENCE + w + "\n", b, i);
    OccursSplit(s, FENCE + w, "\n", i);
    OccursSplit(s, FENCE, w, i);
    FenceAtIsOccurrence(s, i);
    assert s[q..q + 1] == "\n";
    assert s[q] == s[q..q + 1][0];
    OccursSplit(s, b, FENCE, q + 1);
  }

  /**
   Conversely, wherever the message holds "```", a word-only info, a newline,
   some text and "```", the regular expression matches there: its info is the
   same word and its body is no longer than that text, and equal to it when
   that text holds no earlier "```".
   */
  lemma MatchAtComplete(s: string, i: nat, w: string, b: string)
    requires OccursAt(s, Raw(Fenced(w, b)), i)
    requires AllWord(w)
    ensures MatchAt(s, i).Some?
    ensures Info(s, MatchAt(s, i).value) == w
    ensures |Body(s, MatchAt(s, i).value)| <= |b|
  {
    var q := MatchAtFound(s, i, w, b);
    assert Info(s, MatchAt(s, i).value) == s[i + 3..q];
  }

  /** When the text holds no earlier "```", the match spans exactly that fence and its token is the fence token. */
  lemma MatchAtExact(s: string, i: nat, w: string, b: string)
    requires OccursAt(s, Raw(Fenced(w, b)), i)
    requires AllWord(w) && ClosesFirst(b)
    ensures MatchAt(s, i) == Some(FenceMatch(i, i + 3 + |w|, i + 4 + |w| + |b|))
    ensures MatchToken(s, MatchAt(s, i).value) == Fenced(w, b)
  {
    PiecesOfRaw(s, i, w, b);
    ExactFromPieces(s, i, w, b);
  }

  /** The same, from the pieces of the fence found in the message. */
  lemma ExactFromPieces(s: string, i: nat, w: string, b: string)
    requires FenceAt(s, i) && OccursAt(s, w, i + 3) && AllWord(w)
    requires i + 3 + |w| < |s| && s[i + 3 + |w|] == '\n'
    requires OccursAt(s, b + FENCE, i + 4 + |w|) && ClosesFirst(b)
    ensures MatchAt(s, i) == Some(FenceMatch(i, i + 3 + |w|, i + 4 + |w| + |b|))
    ensures MatchToken(s, MatchAt(s, i).value) == Fenced(w, b)
  {
    var q := FoundFromPieces(s, i, w, b);
    var j := q + 1 + |b|;
    FindFenceAfterBody(s, q + 1, b);
    var m := FenceMatch(i, q, j);
    assert MatchAt(s, i) == Some(m);
    assert Info(s, m) == s[i + 3..q];
    assert Body(s, m) == s[q + 1..j];
  }

  /** A body that closes first, found followed by "```" in the message: the search for the closing fence stops right after it. */
  lemma FindFenceAfterBody(s: string, a: nat, b: string)
    requires OccursAt(s, b + FENCE, a) && ClosesFirst(b)
    ensures FindFence(s, a) == Some(a + |b|) && s[a..a + |b|] == b
  {
    FenceAfter(s, b, a);
    ClosesFirstInMessage(s, a, b);
    FindFenceExact(s, a, a + |b|);
  }

  /** The common part of both: the attempt at `i` reads the info word up to the newline at `q` and finds a "```" no later than the end of `b`. */
  lemma MatchAtFound(s: string, i: nat, w: string, b: string) returns (q: nat)
    requires OccursAt(s, Raw(Fenced(w, b)), i)
    requires AllWord(w)
    ensures q == i + 3 + |w| && s[i + 3..q] == w
    ensures OccursAt(s, b + FENCE, q + 1)
    ensures FindFence(s, q + 1).Some? && FindFence(s, q + 1).value <= q + 1 + |b|
    ensures MatchAt(s, i) == Some(FenceMatch(i, q, FindFence(s, q + 1).value))
  {
    PiecesOfRaw(s, i, w, b);
    q := FoundFromPieces(s, i, w, b);
  }

  /** The same, from the pieces of the fence found in the message. */
  lemma FoundFromPieces(s: string, i: nat, w: string, b: string) returns (q: nat)
    requires FenceAt(s, i) && OccursAt(s, w, i + 3) && AllWord(w)
    requires i + 3 + |w| < |s| && s[i + 3 + |w|] == '\n'
    requires OccursAt(s, b + FENCE, i + 4 + |w|)
    ensures q == i + 3 + |w| && s[i + 3..q] == w
    ensures OccursAt(s, b + FENCE, q + 1)
    ensures FindFence(s, q + 1).Some? && FindFence(s, q + 1).value <= q + 1 + |b|
    ensures MatchAt(s, i) == Some(FenceMatch(i, q, FindFence(s, q + 1).value))
  {
    q := i + 3 + |w|;
    FenceAfter(s, b, q + 1);
    FindFenceFinds(s, q + 1, q + 1 + |b|);
    OpeningOfWord(s, i, w);
  }

  /** An opening fence, a word and a newline: the attempt there matches up to the next "```", if any. */
  lemma OpeningOfWord(s: string, i: nat, w: string)
    requires FenceAt(s, i) && OccursAt(s, w, i + 3) && AllWord(w)
    requires i + 3 + |w| < |s| && s[i + 3 + |w|] == '\n'
    ensures FindFence(s, i + 4 + |w|).Some?
            ==> MatchAt(s, i) == Some(FenceMatch(i, i + 3 + |w|, FindFence(s, i + 4 + |w|).value))
  {
    WordAt(s, w, i + 3);
    MatchAtOpening(s, i, i + 3 + |w|);
  }

  /** A word found in the message is a stretch of word characters. */
  lemma WordAt(s: string, w: string, a: nat)
    requires OccursAt(s, w, a) && AllWord(w)
    ensures forall k :: a <= k < a + |w| ==> IsWordChar(s[k])
  {
    forall k | a <= k < a + |w|
      ensures IsWordChar(s[k])
    {
      assert s[k] == s[a..a + |w|][k - a];
    }
  }

  /** Text followed by "```" in the message: a fence starts right after the text. */
  lemma FenceAfter(s: string, b: string, p: nat)
    requires OccursAt(s, b + FENCE, p)
    ensures OccursAt(s, b, p) && FenceAt(s, p + |b|)
  {
    OccursSplit(s, b, FENCE, p);
    FenceAtIsOccurrence(s, p + |b|);
  }

  /** The two directions together: the regular expression matches at `i` with info `w` and body `b` exactly when the message holds that well-formed fence there. */
  lemma MatchAtIff(s: string, i: nat, w: string, b: string)
    ensures MatchAt(s, i).Some? && MatchToken(s, MatchAt(s, i).value) == Fenced(w, b)
            <==> OccursAt(s, Raw(Fenced(w, b)), i) && AllWord(w) && ClosesFirst(b)
  {
    if MatchAt(s, i).Some? && MatchToken(s, MatchAt(s, i).value) == Fenced(w, b) {
      MatchAtSound(s, i);
    }
    if OccursAt(s, Raw(Fenced(w, b)), i) && AllWord(w) && ClosesFirst(b) {
      MatchAtExact(s, i, w, b);
    }
  }
  lemma ConcatCons(t: Token, ts: seq<Token>)
    ensures Concat([t] + ts) == Raw(t) + Concat(ts)
  {
    assert ([t] + ts)[1..] == ts;
  }

  /** A token spelling `s[a..b]` in front of tokens spelling `s[b..]` spells `s[a..]`. */
  lemma TileCons(s: string, a: nat, b: nat, t: Token, ts: seq<Token>)
    requires a <= b <= |s| && Raw(t) == s[a..b] && Concat(ts) == s[b..]
    ensures Concat([t] + ts) == s[a..]
  {
    ConcatCons(t, ts);
    JoinSlices(s, a, b, Raw(t), Concat(ts));
  }

  /** Two pieces of the message, one ending where the other starts, join into the message from the first on. */
  lemma JoinSlices(s: string, a: nat, b: nat, x: string, y: string)
    requires a <= b <= |s| && x == s[a..b] && y == s[b..]
    ensures x + y == s[a..]
  {
    SliceConcat(s, a, b, |s|);
    assert s[a..|s|] == s[a..];
  }

  /** One round of tiling: text before a fence, the fence, then tokens spelling the rest, spell the message from `from` on. */
  lemma TileStep(s: string, from: nat, a: nat, e: nat, t: Token, rest: seq<Token>)
    requires from <= a <= e <= |s| && Raw(t) == s[a..e] && Concat(rest) == s[e..]
    ensures Concat(PlainBefore(s, from, a) + ([t] + rest)) == s[from..]
  {
    TileCons(s, a, e, t, rest);
    if from < a {
      TileCons(s, from, a, Plain(s[from..a]), [t] + rest);
    } else {
      assert PlainBefore(s, from, a) + ([t] + rest) == [t] + rest;
    }
  }

  /** The raw tokens of the scan from `from`, in order, spell out the message from `from` on. */
  predicate TilesFrom(s: string, from: nat)
    requires from <= |s|
  {
    Concat(Scan(s, from)) == s[from..]
  }

  /** A round of the scan tiles when the scan after its match does. */
  lemma TilesRound(s: string, from: nat, m: FenceMatch)
    requires from <= |s| && Exec(s, from) == Some(m)
    requires TilesFrom(s, m.close + 3)
    ensures TilesFrom(s, from)
  {
    ExecSpells(s, from, m);
    RoundTiles(s, from, m);
  }

  /** A round spells the message from `from` on when the fence spells its stretch and the loop after it spells the rest. */
  lemma RoundTiles(s: string, from: nat, m: FenceMatch)
    requires from <= m.start && ValidIn(s, m)
    requires s[m.start..m.close + 3] == Raw(MatchToken(s, m))
    requires TilesFrom(s, m.close + 3)
    ensures Concat(ScanRound(s, from, m)) == s[from..]
  {
    TileStep(s, from, m.start, m.close + 3, MatchToken(s, m), Scan(s, m.close + 3));
  }

  /** With no match left, the rest of the message is one text token, or none. */
  lemma TilesLast(s: string, from: nat)
    requires from <= |s| && Exec(s, from).None?
    ensures TilesFrom(s, from)
  {
    if from < |s| {
      TileCons(s, from, |s|, Plain(s[from..]), []);
      assert Scan(s, from) == [Plain(s[from..])] + [];
    }
  }

  /** The scan loses and adds nothing: the raw tokens, in order, spell out the message from `from` on. */
  lemma {:induction false} ScanTiles(s: string, from: nat)
    requires from <= |s|
    ensures TilesFrom(s, from)
    decreases |s| - from
  {
    match Exec(s, from)
    case None => TilesLast(s, from);
    case Some(m) =>
      ScanTiles(s, m.close + 3);
      TilesRound(s, from, m);
  }

  lemma WellFormedCons(t: Token, ts: seq<Token>)
    requires WellFormed(ts)
    requires t.Plain? ==> t.text != "" && |ts| > 0 && ts[0].Fenced?
    requires t.Fenced? ==> AllWord(t.info) && ClosesFirst(t.body)
    ensures WellFormed([t] + ts)
  {
    var r := [t] + ts;
    assert forall k :: 1 <= k < |r| ==> r[k] == ts[k - 1];
  }

  /** One round keeps the scan well formed: a non-empty text before a well-formed fence, then a well-formed rest. */
  lemma WellFormedStep(s: string, from: nat, a: nat, t: Token, rest: seq<Token>)
    requires from <= a <= |s| && WellFormed(rest)
    requires t.Fenced? && AllWord(t.info) && ClosesFirst(t.body)
    ensures WellFormed(PlainBefore(s, from, a) + ([t] + rest))
  {
    WellFormedCons(t, rest);
    if from < a {
      WellFormedCons(Plain(s[from..a]), [t] + rest);
    } else {
      assert PlainBefore(s, from, a) + ([t] + rest) == [t] + rest;
    }
  }

  /** A round is well formed when its fence is and the loop after it is. */
  lemma RoundWellFormed(s: string, from: nat, m: FenceMatch)
    requires from <= m.start && ValidIn(s, m)
    requires AllWord(Info(s, m)) && ClosesFirst(Body(s, m))
    requires WellFormed(Scan(s, m.close + 3))
    ensures WellFormed(ScanRound(s, from, m))
  {
    WellFormedStep(s, from, m.start, MatchToken(s, m), Scan(s, m.close + 3));
  }

  /** Every scan is well formed. */
  lemma {:induction false} ScanWellFormed(s: string, from: nat)
    requires from <= |s|
    ensures WellFormed(Scan(s, from))
    decreases |s| - from
  {
    match Exec(s, from)
    case None =>
    case Some(m) =>
      ScanWellFormed(s, m.close + 3);
      ExecShape(s, from, m);
      RoundWellFormed(s, from, m);
  }

  /**
   Output order and coverage: the parts are the images, in order, of tokens
   that exactly tile the message; no text part is empty, two text parts are
   never adjacent, and every block body stops at the first closing "```".
   */
  lemma ParseTiles(s: string)
    ensures exists ts :: Parse(s) == Parts(ts) && Concat(ts) == s && WellFormed(ts) && Faithful(s, 0, ts)
  {
    ScanTiles(s, 0);
    ScanWellFormed(s, 0);
    ScanFaithful(s, 0);
    assert Parse(s) == Parts(Scan(s, 0));
  }

  /** The images of well-formed tokens: texts are non-empty and never adjacent, languages are words or "plaintext". */
  lemma PartsShape(ts: seq<Token>)
    requires WellFormed(ts)
    ensures forall k :: 0 <= k < |Parts(ts)| && Parts(ts)[k].Text? ==> Parts(ts)[k].text != ""
    ensures forall k :: 0 <= k < |Parts(ts)| - 1 && Parts(ts)[k].Text? ==> Parts(ts)[k + 1].Code?
    ensures forall k :: 0 <= k < |Parts(ts)| && Parts(ts)[k].Code? ==>
              Parts(ts)[k].language == "plaintext"
              || (Parts(ts)[k].language != "" && AllWord(Parts(ts)[k].language))
  {
    forall k | 0 <= k < |ts|
      ensures Parts(ts)[k] == ToPart(ts[k])
    {
      PartsIndex(ts, k);
    }
  }

  /** The rendered parts: texts are non-empty and never adjacent, languages are words or "plaintext", and "" has no parts. */
  lemma ParseShape(s: string)
    ensures s == "" ==> Parse(s) == []
    ensures forall k :: 0 <= k < |Parse(s)| && Parse(s)[k].Text? ==> Parse(s)[k].text != ""
    ensures forall k :: 0 <= k < |Parse(s)| - 1 && Parse(s)[k].Text? ==> Parse(s)[k + 1].Code?
    ensures forall k :: 0 <= k < |Parse(s)| && Parse(s)[k].Code? ==>
              Parse(s)[k].language == "plaintext"
              || (Parse(s)[k].language != "" && AllWord(Parse(s)[k].language))
  {
    ScanWellFormed(s, 0);
    PartsShape(Scan(s, 0));
  }

  /**
   A message without a closed fence makes no block: when no "```" is
   followed at distance four or more by another, the whole message is one
   text part, verbatim.
   */
  lemma BlockFreeIsText(s: string)
    requires forall i, j :: FenceAt(s, i) && i + 4 <= j ==> !FenceAt(s, j)
    ensures Parse(s) == if s == "" then [] else [Text(s)]
  {
    if Exec(s, 0).Some? {
      ExecMatch(s, 0);
      MatchAtPieces(s, Exec(s, 0).value.start);
    }
  }

  /**
   An info string holding a character that is neither a word character nor
   a line break opens no block: "```c++" followed by a body and a closing
   "```" stays text. The rest of the message may hold fences, only no two of
   them far enough apart to make a block of their own.
   */
  lemma NonWordInfoIsText(w: string, c: char, rest: string)
    requires AllWord(w) && !IsWordChar(c) && c != '\n'
    requires var s := FENCE + w + [c] + rest;
      forall i, j :: 0 < i && FenceAt(s, i) && i + 4 <= j ==> !FenceAt(s, j)
    ensures Parse(FENCE + w + [c] + rest) == [Text(FENCE + w + [c] + rest)]
  {
    var s := FENCE + w + [c] + rest;
    var q := 3 + |w|;
    assert s[q] == c;
    forall k | 3 <= k < q
      ensures IsWordChar(s[k])
    {
      assert s[k] == w[k - 3];
    }
    WordRunTo(s, 3, q);
    assert MatchAt(s, 0).None?;
    if Exec(s, 0).Some? {
      ExecMatch(s, 0);
      MatchAtPieces(s, Exec(s, 0).value.start);
    }
  }

  /** The message "```c++\nx\n```" is one text part. */
  lemma CppInfoIsText()
    ensures Parse("```c++\nx\n```") == [Text("```c++\nx\n```")]
  {
    var s := "```c++\nx\n```";
    assert s == FENCE + "c" + ['+'] + "+\nx\n```";
    forall i | 0 < i <= 8
      ensures !FenceAt(s, i)
    {
      assert s[i] != '`' || s[i + 2] != '`';
    }
    NonWordInfoIsText("c", '+', "+\nx\n```");
  }

  /** Text appended after a non-space does not move where the leading whitespace ends. */
  lemma {:induction false} SkipWsAppend(s: string, x: string, i: nat)
    requires i <= |s| && SkipWs(s, i) < |s|
    ensures SkipWs(s + x, i) == SkipWs(s, i)
    decreases |s| - i
  {
    assert (s + x)[i] == s[i];
    if IsWs(s[i]) {
      SkipWsAppend(s, x, i + 1);
    }
  }

  /** Text appended after `j` does not change where the whitespace before `j` begins. */
  lemma {:induction false} SkipWsBackAppend(s: string, x: string, j: nat)
    requires j <= |s|
    ensures SkipWsBack(s + x, j) == SkipWsBack(s, j)
    decreases j
  {
    if j > 0 {
      assert (s + x)[j - 1] == s[j - 1];
      SkipWsBackAppend(s, x, j - 1);
    }
  }

  lemma TrimStartAppend(s: string, x: string)
    requires TrimStart(s) != []
    ensures TrimStart(s + x) == TrimStart(s) + x
  {
    SkipWsAppend(s, x, 0);
    assert (s + x)[SkipWs(s, 0)..] == s[SkipWs(s, 0)..] + x;
  }

  lemma TrimStartAllWs(s: string, c: char)
    requires TrimStart(s) == [] && IsWs(c)
    ensures TrimStart(s + [c]) == []
  {
    var t := s + [c];
    assert forall k :: 0 <= k < |t| ==> IsWs(t[k]) by {
      forall k | 0 <= k < |t|
        ensures IsWs(t[k])
      {
        if k < |s| {
          assert t[k] == s[k];
        }
      }
    }
  }

  /** Trailing whitespace does not change `trim`. */
  lemma TrimIgnoresTrailingWs(s: string, c: char)
    requires IsWs(c)
    ensures Trim(s + [c]) == Trim(s)
  {
    var t := TrimStart(s);
    if t != [] {
      TrimStartAppend(s, [c]);
      var u := t + [c];
      assert SkipWsBack(u, |u|) == SkipWsBack(u, |t|);
      SkipWsBackAppend(t, [c], |t|);
      assert u[..SkipWsBack(t, |t|)] == t[..SkipWsBack(t, |t|)];
    } else {
      TrimStartAllWs(s, c);
    }
  }

  /** A message that is exactly one well-formed fence parses to exactly one block. */
  lemma SingleFence(w: string, b: string)
    requires AllWord(w) && ClosesFirst(b)
    ensures Parse(Raw(Fenced(w, b))) == [ToPart(Fenced(w, b))]
  {
    var s := Raw(Fenced(w, b));
    assert s[0..|s|] == s;
    MatchAtExact(s, 0, w, b);
    assert Exec(s, 0) == MatchAt(s, 0);
    var m := Exec(s, 0).value;
    assert m == FenceMatch(0, 3 + |w|, 4 + |w| + |b|);
    assert s[3..3 + |w|] == w && s[4 + |w|..4 + |w| + |b|] == b;
    assert Scan(s, |s|) == [];
    assert Scan(s, 0) == [MatchToken(s, m)];
  }

  /** A text with no "```" in it, followed by a newline, closes at the fence after it. */
  lemma NoFenceClosesFirst(out: string)
    requires !Contains(out, FENCE)
    ensures ClosesFirst(out + "\n")
  {
    var b := out + "\n";
    forall k | 0 <= k < |b|
      ensures !FenceAt(b + FENCE, k)
    {
      if k + 3 <= |out| {
        FenceAtSlice(b + FENCE, 0, |out|, k);
        assert (b + FENCE)[..|out|] == out;
        FenceAtIsOccurrence(out, k);
      } else {
        assert (b + FENCE)[|out|] == '\n';
      }
    }
  }

  /**
   Command output is shown as "```\n" + output + "\n```": when the output holds
   no "```", that message parses to exactly one block, in "plaintext", whose
   content is the trimmed output.
   */
  lemma CommandOutputIsOneBlock(out: string)
    requires !Contains(out, FENCE)
    ensures Parse("```\n" + out + "\n```") == [Code("plaintext", Trim(out))]
  {
    var b := out + "\n";
    assert "```\n" + out + "\n```" == Raw(Fenced("", b));
    NoFenceClosesFirst(out);
    SingleFence("", b);
    TrimIgnoresTrailingWs(out, '\n');
  }

  /** A non-space character at `k` preceded only by whitespace: the first visible character of `s`. */
  predicate FirstVisibleAt(s: string, k: int) {
    0 <= k < |s| && !IsWs(s[k]) && forall j :: 0 <= j < k ==> IsWs(s[j])
  }

  /**
   `isCommand` is applied to the trimmed content, so a block is a command
   exactly when the first non-space character of its raw body is "$" or ">".
   */
  lemma IsCommandOnTrimmedBody(body: string)
    ensures IsCommand(Trim(body)) <==>
            exists k :: FirstVisibleAt(body, k) && (body[k] == '$' || body[k] == '>')
  {
    var t := TrimStart(body);
    TrimKeepsHead(body);
    if t != [] {
      var k := |body| - |t|;
      assert t[0] == body[k];
      assert FirstVisibleAt(body, k);
      forall k' | FirstVisibleAt(body, k')
        ensures k' == k
      {
      }
    } else {
      forall k' | 0 <= k' < |body|
        ensures !FirstVisibleAt(body, k')
      {
      }
    }
  }

  /** `trim` keeps the first visible character: the trimmed text starts with "$" or ">" exactly when the text after leading spaces does. */
  lemma TrimKeepsHead(s: string)
    ensures IsCommand(Trim(s)) <==> TrimStart(s) != [] && (TrimStart(s)[0] == '$' || TrimStart(s)[0] == '>')
  {
    var t := TrimStart(s);
    var r := TrimEnd(t);
    if t != [] {
      assert r != [] && r[0] == t[0];
    }
    assert "$" <= r <==> |r| > 0 && r[0] == '$';
    assert ">" <= r <==> |r| > 0 && r[0] == '>';
  }

  // ---------------------------------------------------------------------
  // The scan against the regular expression, start by start

  /**
   A token read at offset `o` of `s` is what `regex.exec` from `o` finds: a
   text token ends at or before the next match, and a fence token is a match
   that starts right at `o`.
   */
  predicate Agrees(s: string, o: nat, t: Token) {
    match t
    case Plain(x) => Exec(s, o).None? || o + |x| <= Exec(s, o).value.start
    case Fenced(_, _) => Exec(s, o).Some? && Exec(s, o).value.start == o && MatchToken(s, Exec(s, o).value) == t
  }

  /** Every token, read where the ones before it end, agrees with the regular expression. */
  predicate AgreesFrom(s: string, o: nat, ts: seq<Token>)
    decreases |ts|
  {
    |ts| == 0 || (Agrees(s, o, ts[0]) && AgreesFrom(s, o + |Raw(ts[0])|, ts[1..]))
  }

  /** The tokens, read from offset `o` on, agree with the regular expression. */
  predicate Faithful(s: string, o: nat, ts: seq<Token>) {
    AgreesFrom(s, o, ts)
  }

  /** In terms of single attempts: no attempt succeeds at a start a text token covers, and a fence token is the attempt at its start. */
  lemma AgreesMeans(s: string, o: nat, t: Token)
    requires Agrees(s, o, t)
    ensures t.Plain? ==> forall k :: o <= k < o + |t.text| ==> MatchAt(s, k).None?
    ensures t.Fenced? ==> MatchAt(s, o).Some? && MatchToken(s, MatchAt(s, o).value) == t
  {
    ExecLeftmost(s, o);
    if t.Fenced? {
      ExecMatch(s, o);
    }
  }

  lemma FaithfulCons(s: string, o: nat, t: Token, ts: seq<Token>)
    requires Agrees(s, o, t) && Faithful(s, o + |Raw(t)|, ts)
    ensures Faithful(s, o, [t] + ts)
  {
    assert ([t] + ts)[1..] == ts;
  }

  lemma FaithfulUncons(s: string, o: nat, ts: seq<Token>)
    requires |ts| > 0 && Faithful(s, o, ts)
    ensures Agrees(s, o, ts[0]) && Faithful(s, o + |Raw(ts[0])|, ts[1..])
  {}

  /** `regex.exec` from `o` and from a later `p` agree when the former finds nothing before `p`. */
  lemma {:induction false} ExecSkip(s: string, o: nat, p: nat)
    requires o <= p && (Exec(s, o).None? || p <= Exec(s, o).value.start)
    ensures Exec(s, o) == Exec(s, p)
    decreases p - o
  {
    if o < p && o < |s| {
      assert MatchAt(s, o).None?;
      assert Exec(s, o) == Exec(s, o + 1);
      ExecSkip(s, o + 1, p);
    }
  }

  /** The scan is empty only at the end of the message. */
  lemma ScanEmpty(s: string, o: nat)
    requires o <= |s| && Scan(s, o) == []
    ensures o == |s|
  {}

  /**
   The scan skips no match: no attempt succeeds at a start its text tokens
   cover, and each fence token is the match at its own start.
   */
  lemma {:induction false} ScanFaithful(s: string, from: nat)
    requires from <= |s|
    ensures Faithful(s, from, Scan(s, from))
    decreases |s| - from
  {
    match Exec(s, from)
    case None => FaithfulLast(s, from);
    case Some(m) =>
      ScanFaithful(s, m.close + 3);
      FaithfulRound(s, from, m);
      assert Scan(s, from) == ScanRound(s, from, m);
  }

  /** With no match left, the rest of the message is a text token, or nothing. */
  lemma FaithfulLast(s: string, from: nat)
    requires from <= |s| && Exec(s, from).None?
    ensures Faithful(s, from, Scan(s, from))
  {
    if from < |s| {
      FaithfulCons(s, from, Plain(s[from..]), []);
      assert Scan(s, from) == [Plain(s[from..])] + [];
    }
  }

  /** A round agrees with the regular expression when the scan after its match does. */
  lemma FaithfulRound(s: string, from: nat, m: FenceMatch)
    requires from <= |s| && Exec(s, from) == Some(m)
    requires Faithful(s, m.close + 3, Scan(s, m.close + 3))
    ensures Faithful(s, from, PlainBefore(s, from, m.start) + ([MatchToken(s, m)] + Scan(s, m.close + 3)))
  {
    ExecSkip(s, from, m.start);
    FaithfulMatch(s, m, Scan(s, m.close + 3));
    FaithfulBefore(s, from, m.start, [MatchToken(s, m)] + Scan(s, m.close + 3));
  }

  /** A match found right at its start, followed by tokens that agree from its end, agrees from its start. */
  lemma FaithfulMatch(s: string, m: FenceMatch, rest: seq<Token>)
    requires Exec(s, m.start) == Some(m) && Faithful(s, m.close + 3, rest)
    ensures Faithful(s, m.start, [MatchToken(s, m)] + rest)
  {
    var t := MatchToken(s, m);
    MatchAgrees(s, m);
    RawLength(s, m);
    FaithfulCons(s, m.start, t, rest);
  }

  lemma MatchAgrees(s: string, m: FenceMatch)
    requires Exec(s, m.start) == Some(m)
    ensures ValidIn(s, m) && Agrees(s, m.start, MatchToken(s, m))
  {}

  lemma RawLength(s: string, m: FenceMatch)
    requires ValidIn(s, m)
    ensures |Raw(MatchToken(s, m))| == m.close + 3 - m.start
  {}

  /** The text before the next match agrees. */
  lemma FaithfulBefore(s: string, from: nat, a: nat, ts: seq<Token>)
    requires from <= a <= |s| && Faithful(s, a, ts)
    requires Exec(s, from).None? || a <= Exec(s, from).value.start
    ensures Faithful(s, from, PlainBefore(s, from, a) + ts)
  {
    if from < a {
      FaithfulCons(s, from, Plain(s[from..a]), ts);
    } else {
      assert PlainBefore(s, from, a) + ts == ts;
    }
  }

  /** The tokens spell the message from `o` on. */
  predicate Spells(s: string, o: nat, ts: seq<Token>) {
    o <= |s| && Concat(ts) == s[o..]
  }

  /** The first token of a tiling spells the start of the message, and the others spell the rest. */
  lemma ConcatHead(s: string, o: nat, ts: seq<Token>)
    requires Spells(s, o, ts) && |ts| > 0
    ensures o + |Raw(ts[0])| <= |s| && Raw(ts[0]) == s[o..o + |Raw(ts[0])|]
    ensures Spells(s, o + |Raw(ts[0])|, ts[1..])
  {
    var r, rest := Raw(ts[0]), Concat(ts[1..]);
    assert Concat(ts) == r + rest;
    PrefixSuffix(s[o..], r, rest);
    SuffixSlices(s, o, |r|);
  }

  lemma PrefixSuffix(x: string, a: string, b: string)
    requires x == a + b
    ensures |a| <= |x| && x[..|a|] == a && x[|a|..] == b
  {}

  lemma SuffixSlices(s: string, o: nat, n: nat)
    requires o + n <= |s|
    ensures s[o..][..n] == s[o..o + n] && s[o..][n..] == s[o + n..]
  {}

  lemma WellFormedTail(ts: seq<Token>)
    requires WellFormed(ts) && |ts| > 0
    ensures WellFormed(ts[1..])
    ensures ts[0].Plain? ==> ts[0].text != "" && (|ts| > 1 ==> ts[1].Fenced?)
  {
    assert forall k :: 0 <= k < |ts| - 1 ==> ts[1..][k] == ts[k + 1];
  }

  /** `ts` is a well-formed tiling of the message from `o` on that agrees with the regular expression. */
  predicate HonestTiling(s: string, o: nat, ts: seq<Token>) {
    Spells(s, o, ts) && WellFormed(ts) && Faithful(s, o, ts)
  }

  /** The first token of such a tiling, spelling `s[o..p]`, as the uniqueness step needs it. */
  predicate HonestHead(s: string, o: nat, p: nat, ts: seq<Token>) {
    && o <= p <= |s| && |ts| > 0 && p == o + |Raw(ts[0])| && Raw(ts[0]) == s[o..p]
    && Agrees(s, o, ts[0])
    && (ts[0].Plain? ==> ts[0].text != "" && (|ts| > 1 ==> ts[1].Fenced? && Agrees(s, p, ts[1])))
  }

  /** `ts` is the scan of the message from `o` on. */
  predicate IsScan(s: string, o: nat, ts: seq<Token>) {
    o <= |s| && ts == Scan(s, o)
  }

  /**
   Conversely, the scan is the only well-formed tiling of the message from
   `o` on that agrees with the regular expression token by token. (Stated as
   an implication, so that a use of it does not have to re-check the tiling.)
   */
  lemma {:induction false} ScanUnique(s: string, o: nat, ts: seq<Token>)
    ensures HonestTiling(s, o, ts) ==> IsScan(s, o, ts)
    decreases |ts|
  {
    if |ts| == 0 {
      UniqueEmpty(s, o, ts);
    } else {
      UniqueCons(s, o, ts);
      ScanUnique(s, o + |Raw(ts[0])|, ts[1..]);
    }
  }

  /**
   The step of the induction: the rest of an honest tiling is one too, and
   when the rest is the scan from its start, so is the whole.
   */
  lemma UniqueCons(s: string, o: nat, ts: seq<Token>)
    requires |ts| > 0
    ensures HonestTiling(s, o, ts) ==>
              && HonestTiling(s, o + |Raw(ts[0])|, ts[1..])
              && (IsScan(s, o + |Raw(ts[0])|, ts[1..]) ==> IsScan(s, o, ts))
  {
    if HonestTiling(s, o, ts) {
      UniqueTail(s, o, ts);
      if IsScan(s, o + |Raw(ts[0])|, ts[1..]) {
        UniqueConsAt(s, o, ts);
      }
    }
  }

  lemma UniqueConsAt(s: string, o: nat, ts: seq<Token>)
    requires HonestTiling(s, o, ts) && |ts| > 0 && IsScan(s, o + |Raw(ts[0])|, ts[1..])
    ensures IsScan(s, o, ts)
  {
    UniqueHeadAt(s, o, ts);
    UniqueStepAt(s, o, o + |Raw(ts[0])|, ts);
  }

  /** The empty tiling is the scan at the end of the message. */
  lemma UniqueEmpty(s: string, o: nat, ts: seq<Token>)
    requires |ts| == 0
    ensures Spells(s, o, ts) ==> IsScan(s, o, ts)
  {
    if Spells(s, o, ts) {
      assert |s[o..]| == 0;
    }
  }

  /** The first token of an honest tiling, as the uniqueness step needs it. */
  lemma UniqueHeadAt(s: string, o: nat, ts: seq<Token>)
    requires HonestTiling(s, o, ts) && |ts| > 0
    ensures HonestHead(s, o, o + |Raw(ts[0])|, ts)
  {
    ConcatHead(s, o, ts);
    WellFormedTail(ts);
    FaithfulUncons(s, o, ts);
    if |ts| > 1 {
      FaithfulUncons(s, o + |Raw(ts[0])|, ts[1..]);
    }
  }

  /** The rest of an honest tiling is one too. */
  lemma UniqueTail(s: string, o: nat, ts: seq<Token>)
    requires HonestTiling(s, o, ts) && |ts| > 0
    ensures HonestTiling(s, o + |Raw(ts[0])|, ts[1..])
  {
    ConcatHead(s, o, ts);
    WellFormedTail(ts);
    FaithfulUncons(s, o, ts);
  }

  /** A token that agrees with the regular expression, before the scan of the rest, is the scan. */
  lemma UniqueStepAt(s: string, o: nat, p: nat, ts: seq<Token>)
    requires HonestHead(s, o, p, ts) && IsScan(s, p, ts[1..])
    ensures IsScan(s, o, ts)
  {
    match ts[0]
    case Fenced(_, _) =>
      ExecSpells(s, o, Exec(s, o).value);
      UniqueFenced(s, o, ts);
    case Plain(x) =>
      if |ts| == 1 {
        ScanEmpty(s, p);
        assert s[o..p] == s[o..];
        assert ts == [Plain(s[o..])];
        UniqueLast(s, o, ts);
      } else {
        ExecSkip(s, o, p);
        UniquePlain(s, o, p, ts);
      }
  }

  lemma UniqueFenced(s: string, o: nat, ts: seq<Token>)
    requires |ts| > 0 && Exec(s, o).Some? && Exec(s, o).value.start == o
    requires ts[0] == MatchToken(s, Exec(s, o).value) && ts[1..] == Scan(s, Exec(s, o).value.close + 3)
    ensures o <= |s| && ts == Scan(s, o)
  {
    var m := Exec(s, o).value;
    assert Scan(s, o) == ScanRound(s, o, m);
    assert PlainBefore(s, o, o) == [];
    assert ts == [ts[0]] + ts[1..];
  }

  lemma UniqueLast(s: string, o: nat, ts: seq<Token>)
    requires o < |s| && ts == [Plain(s[o..])]
    requires Exec(s, o).None? || |s| <= Exec(s, o).value.start
    ensures ts == Scan(s, o)
  {}

  lemma UniquePlain(s: string, o: nat, p: nat, ts: seq<Token>)
    requires o < p <= |s| && |ts| > 1 && ts[0] == Plain(s[o..p])
    requires Exec(s, o) == Exec(s, p) && Exec(s, p).Some? && Exec(s, p).value.start == p
    requires ts[1..] == Scan(s, p)
    ensures ts == Scan(s, o)
  {
    var m := Exec(s, p).value;
    assert Scan(s, o) == ScanRound(s, o, m);
    assert Scan(s, p) == ScanRound(s, p, m);
    assert PlainBefore(s, p, p) == [];
    assert ts == [ts[0]] + ts[1..];
  }

  /** `parseCodeBlocks` is the image of the one well-formed tiling of the message that agrees with the regular expression. */
  lemma ParseIsUnique(s: string, ts: seq<Token>)
    requires Concat(ts) == s && WellFormed(ts) && Faithful(s, 0, ts)
    ensures Parse(s) == Parts(ts)
  {
    assert s[0..] == s;
    assert HonestTiling(s, 0, ts);
    ScanUnique(s, 0, ts);
    assert Scan(s, 0) == ts;
  }

  // ---------------------------------------------------------------------
  // An opening fence that is never closed

  /** `x` ends with `y`. */
  predicate EndsWith(x: string, y: string) {
    |y| <= |x| && x[|x| - |y|..] == y
  }

  /** No "```" starts at or after `a`. */
  predicate NoFenceFrom(s: string, a: int) {
    forall j :: a <= j < |s| ==> !FenceAt(s, j)
  }

  /**
   Where the fence at `i` ends up among the tokens: the message from `i` on
   ends the last text token, or `i` is within the closing "```" of the last
   fence token, which only a text token may follow.
   */
  predicate TokensEndAt(s: string, i: int, ts: seq<Token>) {
    var n := |ts|;
    || (n > 0 && ts[n - 1].Plain? && 0 <= i <= |s| && EndsWith(ts[n - 1].text, s[i..]))
    || (n > 0 && ts[n - 1].Fenced? && i == |s| - 3)
    || (n > 1 && ts[n - 1].Plain? && ts[n - 2].Fenced?
        && |s| - |ts[n - 1].text| - 3 <= i < |s| - |ts[n - 1].text|)
  }

  /** The same, for the parts the view renders. */
  predicate PartsEndAt(s: string, i: int, ps: seq<Part>) {
    var n := |ps|;
    || (n > 0 && ps[n - 1].Text? && 0 <= i <= |s| && EndsWith(ps[n - 1].text, s[i..]))
    || (n > 0 && ps[n - 1].Code? && i == |s| - 3)
    || (n > 1 && ps[n - 1].Text? && ps[n - 2].Code?
        && |s| - |ps[n - 1].text| - 3 <= i < |s| - |ps[n - 1].text|)
  }

  /** With no "```" from `a` on, no attempt succeeds from `a - 4` on: every match needs a closing fence four or more places after its start. */
  lemma NoMatchAfter(s: string, a: int, k: nat)
    requires NoFenceFrom(s, a) && a <= k + 4
    ensures MatchAt(s, k).None?
  {
    if MatchAt(s, k).Some? {
      MatchAtPieces(s, k);
    }
  }

  /** No fence starts strictly inside a match, before its closing "```". */
  lemma NoFenceInsideMatch(s: string, m: FenceMatch, i: nat)
    requires MatchAt(s, m.start) == Some(m) && m.start < i < m.close
    ensures !FenceAt(s, i)
  {
    MatchAtPieces(s, m.start);
    if i <= m.newline {
      var q := if i < m.start + 3 then m.start + 3 else i;
      assert q < m.newline ==> IsWordChar(Info(s, m)[q - m.start - 3]);
    }
  }

  /** Prepending tokens keeps the last two. */
  lemma TokensEndAtAppend(s: string, i: int, xs: seq<Token>, ys: seq<Token>)
    requires TokensEndAt(s, i, ys)
    ensures TokensEndAt(s, i, xs + ys)
  {
    var n, t := |ys|, xs + ys;
    assert t[|t| - 1] == ys[n - 1];
    assert n > 1 ==> t[|t| - 2] == ys[n - 2];
  }

  /**
   The scan from before an unclosed fence: the fence lies in the last text
   token, or is the closing fence of the last block.
   */
  lemma {:induction false} ScanEndsAt(s: string, from: nat, i: nat)
    requires from <= i && FenceAt(s, i) && NoFenceFrom(s, i + 4)
    ensures TokensEndAt(s, i, Scan(s, from))
    decreases |s| - from
  {
    match Exec(s, from)
    case None =>
      LastEndsAt(s, from, i);
    case Some(m) =>
      if m.close + 3 <= i {
        ScanEndsAt(s, m.close + 3, i);
        RoundEndsAt(s, from, m, i);
      } else {
        InsideEndsAt(s, from, m, i);
      }
  }

  /** With no match left, the fence lies in the one text token the scan ends with. */
  lemma LastEndsAt(s: string, from: nat, i: nat)
    requires from <= i < |s| && Exec(s, from).None?
    ensures TokensEndAt(s, i, Scan(s, from))
  {
    assert Scan(s, from) == [Plain(s[from..])];
    assert s[from..][i - from..] == s[i..];
  }

  /** A round before the fence keeps where the scan after it ends. */
  lemma RoundEndsAt(s: string, from: nat, m: FenceMatch, i: int)
    requires from <= |s| && Exec(s, from) == Some(m)
    requires TokensEndAt(s, i, Scan(s, m.close + 3))
    ensures TokensEndAt(s, i, Scan(s, from))
  {
    ScanSplits(s, from, m);
    TokensEndAtAppend(s, i, PlainBefore(s, from, m.start) + [MatchToken(s, m)], Scan(s, m.close + 3));
  }

  /** The first match found from before the fence reaches past it: the fence is its closing one. */
  lemma InsideEndsAt(s: string, from: nat, m: FenceMatch, i: nat)
    requires from <= i && Exec(s, from) == Some(m) && i < m.close + 3
    requires FenceAt(s, i) && NoFenceFrom(s, i + 4)
    ensures TokensEndAt(s, i, Scan(s, from))
  {
    ExecMatch(s, from);
    if m.start >= i {
      NoMatchAfter(s, i + 4, m.start);
    }
    if i < m.close {
      NoFenceInsideMatch(s, m, i);
    }
    ClosingFenceEnds(s, from, m, i);
  }

  /** A fence within the closing "```" of a match, with no fence four or more places after it: the scan ends with that block. */
  lemma ClosingFenceEnds(s: string, from: nat, m: FenceMatch, i: nat)
    requires from <= |s| && Exec(s, from) == Some(m) && m.close <= i < m.close + 3
    requires FenceAt(s, i) && NoFenceFrom(s, i + 4)
    ensures TokensEndAt(s, i, Scan(s, from))
  {
    NothingAfter(s, i, m.close + 3);
    ScanSplits(s, from, m);
    EndsWithBlock(s, i, PlainBefore(s, from, m.start) + [MatchToken(s, m)], m.close + 3);
  }

  /** The scan from before a match: the text before it, its block, then the scan after its closing fence. */
  lemma ScanSplits(s: string, from: nat, m: FenceMatch)
    requires from <= |s| && Exec(s, from) == Some(m)
    ensures Scan(s, from) == PlainBefore(s, from, m.start) + [MatchToken(s, m)] + Scan(s, m.close + 3)
  {
    assert Scan(s, from) == ScanRound(s, from, m);
  }

  /** No attempt succeeds from a place after the last fence but four. */
  lemma NothingAfter(s: string, i: nat, e: nat)
    requires NoFenceFrom(s, i + 4) && i <= e <= |s|
    ensures Exec(s, e).None?
  {
    forall k | e <= k < |s|
      ensures MatchAt(s, k).None?
    {
      NoMatchAfter(s, i + 4, k);
    }
    ExecNone(s, e);
  }

  /** Tokens ending with a block whose closing "```" holds `i`, then the rest of the message with no match in it. */
  lemma EndsWithBlock(s: string, i: nat, xs: seq<Token>, e: nat)
    requires |xs| > 0 && xs[|xs| - 1].Fenced? && e - 3 <= i < e && i + 3 <= |s| && e <= |s|
    requires Exec(s, e).None?
    ensures TokensEndAt(s, i, xs + Scan(s, e))
  {
    if e < |s| {
      assert Scan(s, e) == [Plain(s[e..])];
      var t := xs + [Plain(s[e..])];
      assert t[|t| - 1] == Plain(s[e..]) && t[|t| - 2] == xs[|xs| - 1];
    } else {
      assert Scan(s, e) == [];
      assert xs + [] == xs;
    }
  }

  /**
   An opening fence that is never closed makes no block: when no "```"
   follows the fence at `i` at distance four or more, the message from `i` on
   ends the last text part, unless `i` is within the closing "```" of the
   last block (then it is the message's last "```", or only the last text
   part follows it).
   */
  lemma UnterminatedIsText(s: string, i: nat)
    requires FenceAt(s, i) && forall j :: i + 4 <= j ==> !FenceAt(s, j)
    ensures PartsEndAt(s, i, Parse(s))
  {
    var ts := Scan(s, 0);
    ScanEndsAt(s, 0, i);
    var n := |ts|;
    PartsIndex(ts, n - 1);
    if n > 1 {
      PartsIndex(ts, n - 2);
    }
  }

  // ---------------------------------------------------------------------
  // What the preview tab shows

  /** A block that is not HTML previews as an empty page: its style sheet or script has no document to go into. */
  lemma PreviewNeedsHtml(language: string, content: string)
    requires language != "html"
    ensures Sandbox.Compose(SandboxFiles(language, content), []) == ""
    ensures Sandbox.ComposeAsWritten(SandboxFiles(language, content), []) == ""
  {
    assert Sandbox.FileOr(SandboxFiles(language, content), "index.html") == "";
  }

  /**
   An HTML block is the page itself, with an empty style sheet, no script
   tags and an empty script put in at its anchors; with neither anchor it is
   shown as it is. No `$` pattern can reach `replace` this way.
   */
  lemma PreviewOfHtml(content: string)
    ensures var files := SandboxFiles("html", content);
      && Sandbox.ComposeAsWritten(files, []) == Sandbox.Compose(files, [])
      && Sandbox.Compose(files, []) ==
           Sandbox.Document(content, Sandbox.HeadBlock("", Sandbox.LinkLines([])), Sandbox.BodyBlock(""))
    ensures !Contains(content, Sandbox.HEAD) && !Contains(content, Sandbox.BODY) ==>
              Sandbox.Compose(SandboxFiles("html", content), []) == content
  {
    var files := SandboxFiles("html", content);
    assert Sandbox.FileOr(files, "index.html") == content;
    assert Sandbox.FileOr(files, "styles.css") == "";
    assert Sandbox.FileOr(files, "script.js") == "";
    assert Sandbox.DependencyUrls([]) == [];
    Sandbox.ComposeAsWrittenAgrees(files, []);
  }
}

=== FILE: sandbox.dfy ===
/**
 The preview sandbox of the chat front-end (`src/components/preview/sandbox.tsx`):
 the CDN link of each dependency, the document written into the iframe (the
 page's HTML with a style and link block put in place of its first `</head>` and
 a script block in place of its first `</body>`), and the height the frame takes
 from the `resize` messages the page posts back.
 */
module Sandbox {
  import opened Optional
  import opened Strings
  import Js

  const CDN := "https://cdn.jsdelivr.net/npm/"
  const HEAD := "</head>"
  const BODY := "</body>"
  const INITIAL_HEIGHT := "300px"

  /** One entry of `Object.entries(dependencies)`: a package name and its version. */
  datatype Dependency = Dependency(name: string, version: string)

  /**
   The jsDelivr URL of a dependency. A name holding an `@` is split at `/`
   into a scope and a package name; a missing second piece prints as
   "undefined" and pieces after the second are dropped.
   */
  function DependencyUrl(d: Dependency): string {
    if '@' in d.name then
      var pieces := Split(d.name, '/');
      var pkgName := if |pieces| >= 2 then pieces[1] else "undefined";
      CDN + pieces[0] + "/" + pkgName + "@" + d.version
    else
      CDN + d.name + "@" + d.version
  }

  /** `dependencyLinks`: one URL per dependency, in order. */
  function DependencyUrls(deps: seq<Dependency>): seq<string> {
    seq(|deps|, k requires 0 <= k < |deps| => DependencyUrl(deps[k]))
  }

  /** `files[key] || ""`: a missing file reads as the empty text. */
  function FileOr(files: map<string, string>, key: string): (text: string)
    ensures key in files ==> text == files[key]
    ensures key !in files ==> text == ""
  {
    if key in files then files[key] else ""
  }

  function ScriptTag(link: string): string {
    "<script src=\"" + link + "\"></script>"
  }

  /** `dependencyLinks.map(link => `<script src="${link}"></script>`)`. */
  function Tags(links: seq<string>): seq<string> {
    seq(|links|, k requires 0 <= k < |links| => ScriptTag(links[k]))
  }

  /** The script tags of the links, one per line. */
  function LinkLines(links: seq<string>): string {
    Join(Tags(links), "\n")
  }

  /** A character `replace` copies as it is wherever it stands in a replacement: anything but `$`. */
  type PlainChar = c: char | c != '$'

  /** Fixed text of the blocks, none of it a `$` pattern. */
  type PlainText = seq<PlainChar>

  const HEAD_OPEN: PlainText := "\n        <style>"
  const HEAD_MID: PlainText := "</style>\n        "
  const HEAD_CLOSE: PlainText := "\n        </head>\n      "

  /** The text put in place of `</head>`: the style sheet, then the script tags of the links. */
  function HeadBlock(css: string, tags: string): string {
    HEAD_OPEN + css + HEAD_MID + tags + HEAD_CLOSE
  }

  const BODY_OPEN: PlainText := "\n        <script>"

  /** The script the page runs to post its height to the parent window, line by line. */
  const RESIZE_OPEN: PlainText := "        <script>\n"
  const RESIZE_COMMENT: PlainText := "          // iframeの高さを親ウィンドウに通知\n"
  const RESIZE_FUNCTION: PlainText := "          function updateHeight() {\n"
  const RESIZE_MEASURE: PlainText :=
    "            const height = " + "document.documentElement.scrollHeight;\n"
  const RESIZE_POST: PlainText :=
    "            window.parent.postMessage(" + "{ type: 'resize', height }, '*');\n"
  const RESIZE_FUNCTION_END: PlainText := "          }\n"
  const RESIZE_ON_LOAD: PlainText :=
    "          window.addEventListener(" + "'load', updateHeight);\n"
  const RESIZE_ON_RESIZE: PlainText :=
    "          window.addEventListener(" + "'resize', updateHeight);\n"
  const RESIZE_CLOSE: PlainText := "        </script>\n"

  const RESIZE_SCRIPT: PlainText :=
    RESIZE_OPEN + RESIZE_COMMENT + RESIZE_FUNCTION + RESIZE_MEASURE + RESIZE_POST
    + RESIZE_FUNCTION_END + RESIZE_ON_LOAD + RESIZE_ON_RESIZE + RESIZE_CLOSE

  const SCRIPT_END: PlainText := "</script>\n"
  const BODY_END: PlainText := "        </body>\n      "
  const BODY_CLOSE: PlainText := SCRIPT_END + RESIZE_SCRIPT + BODY_END

  /** The text put in place of `</body>`: the page's script, then the script that reports the page height. */
  function BodyBlock(js: string): string {
    BODY_OPEN + js + BODY_CLOSE
  }

  /** `html.replace("</head>", head).replace("</body>", body)` with both blocks inserted as they are. */
  function Document(html: string, head: string, body: string): string {
    ReplaceLiteral(ReplaceLiteral(html, HEAD, head), BODY, body)
  }

  /** The same through `String.prototype.replace`, which expands `$` patterns in the blocks. */
  function DocumentAsWritten(html: string, head: string, body: string): string {
    ReplaceFirst(ReplaceFirst(html, HEAD, head), BODY, body)
  }

  /** The document the component writes into the frame, `content`. */
  function ComposeAsWritten(files: map<string, string>, deps: seq<Dependency>): (content: string)
    ensures !Contains(FileOr(files, "index.html"), HEAD) && !Contains(FileOr(files, "index.html"), BODY)
            ==> content == FileOr(files, "index.html")
  {
    DocumentAsWritten(FileOr(files, "index.html"),
      HeadBlock(FileOr(files, "styles.css"), LinkLines(DependencyUrls(deps))),
      BodyBlock(FileOr(files, "script.js")))
  }

  /** The document with the style sheet, the links and the script inserted as they are. */
  function Compose(files: map<string, string>, deps: seq<Dependency>): (content: string)
    ensures !Contains(FileOr(files, "index.html"), HEAD) && !Contains(FileOr(files, "index.html"), BODY)
            ==> content == FileOr(files, "index.html")
  {
    Document(FileOr(files, "index.html"),
      HeadBlock(FileOr(files, "styles.css"), LinkLines(DependencyUrls(deps))),
      BodyBlock(FileOr(files, "script.js")))
  }

  /** Both blocks begin with a line break and end with a space, neither of which `</body>` holds. */
  lemma BlockEnds(css: string, tags: string, js: string)
    ensures var h := HeadBlock(css, tags);
      |h| > 0 && h[0] == '\n' && h[|h| - 1] == ' '
    ensures var b := BodyBlock(js);
      |b| > 0 && b[0] == '\n' && b[|b| - 1] == ' '
  {}

  /**
   A page with a `</head>` before its first `</body>`: `head` goes in place of
   the first `</head>` and `body` in place of the first `</body>`, and nothing
   else of the page changes, provided `head` holds no `</body>` of its own and
   begins and ends with characters `</body>` lacks.
   */
  lemma DocumentLayout(html: string, head: string, body: string, i: nat, j: nat)
    requires IsFirst(html, HEAD, i) && IsFirst(html, BODY, j) && i + |HEAD| <= j
    requires |head| > 0 && head[0] == '\n' && head[|head| - 1] == ' ' && !Contains(head, BODY)
    ensures Document(html, head, body)
            == html[..i] + head + html[i + |HEAD|..j] + body + html[j + |BODY|..]
  {
    var t := html[..i] + head + html[i + |HEAD|..];
    assert ReplaceLiteral(html, HEAD, head) == t;
    InsertKeepsFirst(html, BODY, head, i, |HEAD|, j);
    var j' := j - |HEAD| + |head|;
    assert ReplaceLiteral(t, BODY, body) == t[..j'] + body + t[j' + |BODY|..];
    assert t[..j'] == html[..i] + head + html[i + |HEAD|..j];
    assert t[j' + |BODY|..] == html[j + |BODY|..];
  }

  /** The composed document of a page with both anchors, `</head>` first. */
  lemma ComposeAtAnchors(files: map<string, string>, deps: seq<Dependency>, i: nat, j: nat)
    requires IsFirst(FileOr(files, "index.html"), HEAD, i)
    requires IsFirst(FileOr(files, "index.html"), BODY, j) && i + |HEAD| <= j
    requires !Contains(HeadBlock(FileOr(files, "styles.css"), LinkLines(DependencyUrls(deps))), BODY)
    ensures var html := FileOr(files, "index.html");
      Compose(files, deps)
      == html[..i] + HeadBlock(FileOr(files, "styles.css"), LinkLines(DependencyUrls(deps)))
         + html[i + |HEAD|..j] + BodyBlock(FileOr(files, "script.js")) + html[j + |BODY|..]
  {
    BlockEnds(FileOr(files, "styles.css"), LinkLines(DependencyUrls(deps)), FileOr(files, "script.js"));
    DocumentLayout(FileOr(files, "index.html"),
      HeadBlock(FileOr(files, "styles.css"), LinkLines(DependencyUrls(deps))),
      BodyBlock(FileOr(files, "script.js")), i, j);
  }

  /**
   A page without `</head>` gets neither the style sheet nor the links: only
   the script block goes in, in place of the first `</body>`.
   */
  lemma ComposeWithoutHead(files: map<string, string>, deps: seq<Dependency>)
    requires !Contains(FileOr(files, "index.html"), HEAD)
    ensures ComposeAsWritten(files, deps)
            == ReplaceFirst(FileOr(files, "index.html"), BODY, BodyBlock(FileOr(files, "script.js")))
    ensures Compose(files, deps)
            == ReplaceLiteral(FileOr(files, "index.html"), BODY, BodyBlock(FileOr(files, "script.js")))
  {}

  /**
   A page with a `</head>` but no `</body>` gets the style and link block in
   place of its first `</head>` and no script at all, provided the block holds
   no `</body>` of its own; without `$` in the block, `replace` writes the same.
   */
  lemma ComposeWithoutBody(files: map<string, string>, deps: seq<Dependency>, i: nat)
    requires IsFirst(FileOr(files, "index.html"), HEAD, i) && !Contains(FileOr(files, "index.html"), BODY)
    requires !Contains(HeadBlock(FileOr(files, "styles.css"), LinkLines(DependencyUrls(deps))), BODY)
    ensures var html := FileOr(files, "index.html");
      Compose(files, deps)
      == html[..i] + HeadBlock(FileOr(files, "styles.css"), LinkLines(DependencyUrls(deps))) + html[i + |HEAD|..]
    ensures '$' !in HeadBlock(FileOr(files, "styles.css"), LinkLines(DependencyUrls(deps))) ==>
              ComposeAsWritten(files, deps) == Compose(files, deps)
  {
    BlockEnds(FileOr(files, "styles.css"), LinkLines(DependencyUrls(deps)), FileOr(files, "script.js"));
    DocumentWithoutBody(FileOr(files, "index.html"),
      HeadBlock(FileOr(files, "styles.css"), LinkLines(DependencyUrls(deps))),
      BodyBlock(FileOr(files, "script.js")), i);
  }

  /** A page with a `</head>` and no `</body>`: only the first `</head>` is replaced. */
  lemma DocumentWithoutBody(html: string, head: string, body: string, i: nat)
    requires IsFirst(html, HEAD, i) && !Contains(html, BODY)
    requires |head| > 0 && head[0] == '\n' && head[|head| - 1] == ' ' && !Contains(head, BODY)
    ensures Document(html, head, body) == html[..i] + head + html[i + |HEAD|..]
    ensures '$' !in head ==> DocumentAsWritten(html, head, body) == Document(html, head, body)
  {
    var t := html[..i] + head + html[i + |HEAD|..];
    assert ReplaceLiteral(html, HEAD, head) == t;
    InsertAvoids(html, BODY, head, i, |HEAD|);
    if '$' !in head {
      ReplaceFirstLiteral(html, HEAD, head);
    }
  }


  /**
   Only "index.html", "styles.css" and "script.js" are read: any other file,
   such as an "index.js", changes nothing of the page, whether added,
   replaced or removed.
   */
  lemma OtherFilesIgnored(files: map<string, string>, deps: seq<Dependency>, key: string, text: string)
    requires key != "index.html" && key != "styles.css" && key != "script.js"
    ensures ComposeAsWritten(files[key := text], deps) == ComposeAsWritten(files, deps)
    ensures Compose(files[key := text], deps) == Compose(files, deps)
    ensures ComposeAsWritten(files - {key}, deps) == ComposeAsWritten(files, deps)
    ensures Compose(files - {key}, deps) == Compose(files, deps)
  {
    FileOrOther(files, key, text, "index.html");
    FileOrOther(files, key, text, "styles.css");
    FileOrOther(files, key, text, "script.js");
  }

  lemma FileOrOther(files: map<string, string>, key: string, text: string, name: string)
    requires name != key
    ensures FileOr(files[key := text], name) == FileOr(files, name)
    ensures FileOr(files - {key}, name) == FileOr(files, name)
  {}

  /** With no `$` in either block, `replace` inserts both as they are. */
  lemma DocumentAgrees(html: string, head: string, body: string)
    requires '$' !in head && '$' !in body
    ensures DocumentAsWritten(html, head, body) == Document(html, head, body)
  {
    ReplaceFirstLiteral(html, HEAD, head);
    ReplaceFirstLiteral(ReplaceLiteral(html, HEAD, head), BODY, body);
  }

  /** `c` is none of the characters of the fixed text of a script tag: its markup, the CDN address, "/", "@" and "undefined". */
  predicate OutsideTemplate(c: char) {
    c !in ScriptTag(CDN + "/@undefined")
  }

  /** A character the name and the version lack, and the fixed text too, is not in the dependency's script tag. */
  lemma TagAvoids(d: Dependency, c: char)
    requires OutsideTemplate(c) && c !in d.name && c !in d.version
    ensures c !in ScriptTag(DependencyUrl(d))
  {
    assert c !in CDN && c !in "/" && c !in "@" && c !in "undefined" by {
      var t := ScriptTag(CDN + "/@undefined");
      assert t == "<script src=\"" + CDN + "/" + "@" + "undefined" + "\"></script>";
    }
    if '@' in d.name {
      var pieces := Split(d.name, '/');
      assert c !in pieces[0];
      if |pieces| >= 2 {
        assert c !in pieces[1];
      }
    }
  }

  lemma LinksAvoid(deps: seq<Dependency>, c: char)
    requires OutsideTemplate(c) && c != '\n'
    requires forall k :: 0 <= k < |deps| ==> c !in deps[k].name && c !in deps[k].version
    ensures c !in LinkLines(DependencyUrls(deps))
  {
    var tags := Tags(DependencyUrls(deps));
    forall k | 0 <= k < |tags|
      ensures c !in tags[k]
    {
      TagAvoids(deps[k], c);
    }
    JoinChars(tags, "\n", c);
  }

  /**
   The link lines hold one `<script src>` tag per dependency, in the order of
   the entries, and nothing else: split at its line breaks, the text gives the
   tags back one by one. With no dependencies it is empty.
   */
  lemma LinkLinesAreTags(deps: seq<Dependency>)
    requires forall k :: 0 <= k < |deps| ==> '\n' !in deps[k].name && '\n' !in deps[k].version
    ensures |deps| == 0 ==> LinkLines(DependencyUrls(deps)) == ""
    ensures |deps| > 0 ==>
              && |Split(LinkLines(DependencyUrls(deps)), '\n')| == |deps|
              && forall k :: 0 <= k < |deps| ==>
                   Split(LinkLines(DependencyUrls(deps)), '\n')[k] == ScriptTag(DependencyUrl(deps[k]))
  {
    if |deps| > 0 {
      TagsOnOneLine(deps);
      SplitJoin(Tags(DependencyUrls(deps)), '\n');
    }
  }

  lemma TagsOnOneLine(deps: seq<Dependency>)
    requires forall k :: 0 <= k < |deps| ==> '\n' !in deps[k].name && '\n' !in deps[k].version
    ensures forall k :: 0 <= k < |deps| ==> '\n' !in Tags(DependencyUrls(deps))[k]
  {
    NewlineOutsideTemplate();
    forall k | 0 <= k < |deps|
      ensures '\n' !in Tags(DependencyUrls(deps))[k]
    {
      TagOnOneLine(deps, k);
    }
  }

  lemma NewlineOutsideTemplate()
    ensures OutsideTemplate('\n')
  {}

  lemma TagOnOneLine(deps: seq<Dependency>, k: nat)
    requires k < |deps| && OutsideTemplate('\n')
    requires '\n' !in deps[k].name && '\n' !in deps[k].version
    ensures '\n' !in Tags(DependencyUrls(deps))[k]
  {
    TagAt(deps, k);
    TagAvoids(deps[k], '\n');
  }

  lemma TagAt(deps: seq<Dependency>, k: nat)
    requires k < |deps|
    ensures |Tags(DependencyUrls(deps))| == |deps|
    ensures Tags(DependencyUrls(deps))[k] == ScriptTag(DependencyUrl(deps[k]))
  {}


  /** Without `$` in the style sheet, the script and the dependencies, the component writes the intended document. */
  lemma ComposeAsWrittenAgrees(files: map<string, string>, deps: seq<Dependency>)
    requires '$' !in FileOr(files, "styles.css") && '$' !in FileOr(files, "script.js")
    requires forall k :: 0 <= k < |deps| ==> '$' !in deps[k].name && '$' !in deps[k].version
    ensures ComposeAsWritten(files, deps) == Compose(files, deps)
  {
    LinksAvoid(deps, '$');
    DocumentAgrees(FileOr(files, "index.html"),
      HeadBlock(FileOr(files, "styles.css"), LinkLines(DependencyUrls(deps))),
      BodyBlock(FileOr(files, "script.js")));
  }

  /**
   A body block holding "$&" on a page with a `</body>` and no `</head>`:
   `replace` writes the matched `</body>` where the "$&" stands.
   */
  lemma DocumentDollarAmpersand(html: string, head: string, j: nat)
    requires !Contains(html, HEAD) && IsFirst(html, BODY, j)
    ensures DocumentAsWritten(html, head, BODY_OPEN + "$&" + BODY_CLOSE)
            == html[..j] + BODY_OPEN + BODY + BODY_CLOSE + html[j + |BODY|..]
    ensures Document(html, head, BODY_OPEN + "$&" + BODY_CLOSE)
            == html[..j] + BODY_OPEN + "$&" + BODY_CLOSE + html[j + |BODY|..]
  {
    var before, after := html[..j], html[j + |BODY|..];
    var repl := BODY_OPEN + "$&" + BODY_CLOSE;
    assert ReplaceFirst(html, HEAD, head) == html && ReplaceLiteral(html, HEAD, head) == html;
    assert ReplaceFirst(html, BODY, repl) == before + Expand(repl, BODY, before, after) + after;
    assert ReplaceLiteral(html, BODY, repl) == before + repl + after;
    ExpandMatchOnce(BODY_OPEN, BODY_CLOSE, BODY, before, after);
    Regroup(before, BODY_OPEN, BODY, BODY_CLOSE, after);
    Regroup(before, BODY_OPEN, "$&", BODY_CLOSE, after);
  }

  lemma Regroup(x: string, a: string, b: string, c: string, y: string)
    ensures x + (a + b + c) + y == x + a + b + c + y
  {}

  /**
   The script "$&" on a page with a `</body>` and no `</head>`: the component
   writes the matched `</body>` where the script was meant to go.
   */
  lemma ScriptDollarAmpersand(html: string, j: nat)
    requires !Contains(html, HEAD) && IsFirst(html, BODY, j)
    ensures var files := map["index.html" := html, "script.js" := "$&"];
      && ComposeAsWritten(files, []) == html[..j] + BODY_OPEN + BODY + BODY_CLOSE + html[j + |BODY|..]
      && Compose(files, []) == html[..j] + BODY_OPEN + "$&" + BODY_CLOSE + html[j + |BODY|..]
      && ComposeAsWritten(files, []) != Compose(files, [])
  {
    var files := map["index.html" := html, "script.js" := "$&"];
    assert FileOr(files, "index.html") == html;
    assert FileOr(files, "script.js") == "$&";
    DocumentDollarAmpersand(html, HeadBlock(FileOr(files, "styles.css"), LinkLines(DependencyUrls([]))), j);
    var a := html[..j] + BODY_OPEN + BODY + BODY_CLOSE + html[j + |BODY|..];
    var c := html[..j] + BODY_OPEN + "$&" + BODY_CLOSE + html[j + |BODY|..];
    assert a[j + |BODY_OPEN|] == '<' && c[j + |BODY_OPEN|] == '$';
  }

  /** A message from the frame is a resize report when its `type` is the string "resize". */
  predicate IsResize(data: Js.Value) {
    !Js.Nullish(data) && Js.Member(data, "type") == Js.Str("resize")
  }

  /** The height a resize report asks for: `${event.data.height}px`. */
  function ReportedHeight(data: Js.Value): (h: string)
    ensures OccursAt(h, "px", |h| - 2)
  {
    var h := Js.ToStr(Js.Member(data, "height")) + "px";
    assert h[|h| - 2..] == "px";
    h
  }

  /**
   `handleMessage`: a resize report sets the height; any other message leaves
   it, reading `type` of a null or undefined message throwing before the
   height is touched.
   */
  function OnMessage(height: string, data: Js.Value): (h: string)
    ensures IsResize(data) ==> h == ReportedHeight(data)
    ensures !IsResize(data) ==> h == height
  {
    if Js.Nullish(data) then height
    else if Js.Member(data, "type") == Js.Str("resize") then Js.ToStr(Js.Member(data, "height")) + "px"
    else height
  }

  /**
   A report of a whole number of pixels, no more than `Number.MAX_SAFE_INTEGER`,
   sets the height to that number's decimal digits followed by "px".
   */
  lemma ResizeToPixels(height: string, props: map<string, Js.Value>, n: nat)
    requires "type" in props && props["type"] == Js.Str("resize")
    requires "height" in props && props["height"] == Js.Num(n) && n <= Js.MAX_SAFE_INTEGER
    ensures OnMessage(height, Js.Obj(props)) == Js.NatToDecimal(n) + "px"
  {}

  /** The frame's height after the messages received so far, starting from "300px". */
  function HeightAfter(msgs: seq<Js.Value>): string {
    if |msgs| == 0 then INITIAL_HEIGHT
    else OnMessage(HeightAfter(msgs[..|msgs| - 1]), msgs[|msgs| - 1])
  }

  /** The last resize report decides the height; with none, it stays "300px". */
  lemma {:induction false} HeightIsLastResize(msgs: seq<Js.Value>, i: nat)
    requires i < |msgs| && IsResize(msgs[i])
    requires forall k :: i < k < |msgs| ==> !IsResize(msgs[k])
    ensures HeightAfter(msgs) == ReportedHeight(msgs[i])
    decreases |msgs|
  {
    var last := |msgs| - 1;
    if i < last {
      assert msgs[..last][i] == msgs[i];
      HeightIsLastResize(msgs[..last], i);
    }
  }

  lemma {:induction false} HeightWithoutResize(msgs: seq<Js.Value>)
    requires forall k :: 0 <= k < |msgs| ==> !IsResize(msgs[k])
    ensures HeightAfter(msgs) == INITIAL_HEIGHT
    decreases |msgs|
  {
    if |msgs| > 0 {
      HeightWithoutResize(msgs[..|msgs| - 1]);
    }
  }

  /** Whatever the name, the link asks for the dependency's version. */
  lemma UrlOfPlainName(d: Dependency)
    requires '@' !in d.name
    ensures DependencyUrl(d) == CDN + d.name + "@" + d.version
  {}

  /**
   A name with an `@` and exactly one `/`, a scoped name such as
   "@scope/pkg" but also "a/b@c", keeps its spelling: splitting and
   rejoining gives the link the plain branch would.
   */
  lemma UrlOfScopedName(scope: string, pkg: string, version: string)
    requires '@' in scope + "/" + pkg && '/' !in scope && '/' !in pkg
    ensures DependencyUrl(Dependency(scope + "/" + pkg, version)) == CDN + scope + "/" + pkg + "@" + version
  {
    SplitFirst(scope, pkg, '/');
    SplitNone(pkg, '/');
    assert scope + "/" + pkg == scope + ['/'] + pkg;
  }

  /** A name with an `@` and no `/` is read as a scope with the package name "undefined". */
  lemma UrlOfScopeOnly(name: string, version: string)
    requires '@' in name && '/' !in name
    ensures DependencyUrl(Dependency(name, version)) == CDN + name + "/undefined@" + version
  {
    SplitNone(name, '/');
  }

  /** A name with an `@` and more than one `/`: only the first two pieces reach the link. */
  lemma UrlDropsDeepPath(scope: string, pkg: string, rest: string, version: string)
    requires '@' in scope && '/' !in scope && '/' !in pkg
    ensures DependencyUrl(Dependency(scope + "/" + pkg + "/" + rest, version)) == CDN + scope + "/" + pkg + "@" + version
  {
    DeepNamePieces(scope, pkg, rest);
  }

  lemma DeepNamePieces(scope: string, pkg: string, rest: string)
    requires '@' in scope && '/' !in scope && '/' !in pkg
    ensures var name := scope + "/" + pkg + "/" + rest;
      && '@' in name
      && |Split(name, '/')| >= 2 && Split(name, '/')[0] == scope && Split(name, '/')[1] == pkg
  {
    var name := scope + "/" + pkg + "/" + rest;
    assert name == scope + ['/'] + (pkg + ['/'] + rest);
    SplitFirst(pkg, rest, '/');
    SplitFirst(scope, pkg + ['/'] + rest, '/');
    var k :| 0 <= k < |scope| && scope[k] == '@';
    assert name[k] == '@';
  }
}

=== FILE: typing.dfy ===
/**
 The typing animation of a chat reply (`src/components/chat/typing-animation.tsx`):
 a timer that, on every firing, shows one more character of the text, and
 calls `onComplete` once the whole text is shown. The component's state
 (`displayText`) outlives a run of the effect; the counter, the pending timer
 and the calls of `onComplete` belong to one run. The delay `speed` between
 firings is not modelled: a tick is one firing, whenever it comes.
 */
module Typing {
  /**
   What one run of the effect has reached: the text shown, the effect's
   `currentIndex`, whether a timer is pending, and how many times
   `onComplete` has been called.
   */
  datatype State = State(display: string, index: nat, pending: bool, completions: nat)

  /** A run of the effect begins: the counter is 0 and a timer is set; the text shown is left as it was. */
  function Start(display: string): (s: State)
    ensures s.display == display && s.index == 0 && s.pending && s.completions == 0
  {
    State(display, 0, true, 0)
  }

  /**
   The pending timer fires (`typeNextChar`): while characters remain, one more
   is shown and the next firing is set; after that, `onComplete` is called if
   there is one, and no firing is set. Without a pending timer nothing happens.
   */
  function Tick(text: string, hasOnComplete: bool, s: State): (t: State)
    ensures !s.pending ==> t == s
    ensures s.pending && s.index < |text| ==>
              t.display == text[..s.index + 1] && t.index == s.index + 1 && t.pending && t.completions == s.completions
    ensures s.pending && s.index >= |text| ==>
              t.display == s.display && t.index == s.index && !t.pending
              && t.completions == s.completions + (if hasOnComplete then 1 else 0)
  {
    if !s.pending then s
    else if s.index < |text| then State(text[..s.index + 1], s.index + 1, true, s.completions)
    else State(s.display, s.index, false, s.completions + (if hasOnComplete then 1 else 0))
  }

  /** The effect's cleanup (`clearTimeout`): the pending firing is cancelled. */
  function Cancel(s: State): (t: State)
    ensures !t.pending && t.display == s.display && t.index == s.index && t.completions == s.completions
  {
    s.(pending := false)
  }

  /** The state after `n` firings. */
  function Run(text: string, hasOnComplete: bool, s: State, n: nat): State {
    if n == 0 then s else Tick(text, hasOnComplete, Run(text, hasOnComplete, s, n - 1))
  }

  /** The cursor is drawn while fewer characters are shown than the text has. */
  predicate ShowsCursor(text: string, display: string) {
    |display| < |text|
  }

  /** After `k` firings, `k` at most the text's length and at least one, the first `k` characters are shown and the next firing is set. */
  lemma {:induction false} TypedPrefix(text: string, hasOnComplete: bool, display: string, k: nat)
    requires 1 <= k <= |text|
    ensures Run(text, hasOnComplete, Start(display), k) == State(text[..k], k, true, 0)
  {
    if k > 1 {
      TypedPrefix(text, hasOnComplete, display, k - 1);
    }
  }

  /**
   One firing after the last character, the animation is over: the whole
   text is shown (the earlier text, when the text is empty), no firing is
   pending, and `onComplete`, if there is one, has been called once.
   */
  lemma Finished(text: string, hasOnComplete: bool, display: string)
    ensures var s := Run(text, hasOnComplete, Start(display), |text| + 1);
      && s.display == (if |text| == 0 then display else text)
      && !s.pending
      && s.completions == (if hasOnComplete then 1 else 0)
  {
    if |text| > 0 {
      TypedPrefix(text, hasOnComplete, display, |text|);
      assert text[..|text|] == text;
    }
  }

  /** Once no firing is pending, later firings change nothing: `onComplete` is never called twice. */
  lemma {:induction false} Settled(text: string, hasOnComplete: bool, s: State, m: nat, n: nat)
    requires m <= n && !Run(text, hasOnComplete, s, m).pending
    ensures Run(text, hasOnComplete, s, n) == Run(text, hasOnComplete, s, m)
  {
    if n > m {
      Settled(text, hasOnComplete, s, m, n - 1);
    }
  }

  /** While the animation runs, the cursor shows exactly until the last character is typed. */
  lemma CursorWhileTyping(text: string, hasOnComplete: bool, display: string, k: nat)
    requires 1 <= k <= |text|
    ensures ShowsCursor(text, Run(text, hasOnComplete, Start(display), k).display) <==> k < |text|
  {
    TypedPrefix(text, hasOnComplete, display, k);
  }

  /**
   After the animation no cursor is shown, whatever was shown when the run
   began: a restart for a new text ends without a cursor too.
   */
  lemma NoCursorWhenDone(text: string, hasOnComplete: bool, display: string, n: nat)
    requires n > |text|
    ensures !ShowsCursor(text, Run(text, hasOnComplete, Start(display), n).display)
  {
    Finished(text, hasOnComplete, display);
    Settled(text, hasOnComplete, Start(display), |text| + 1, n);
  }

  /**
   The whole course of a run from its start, after any number `n` of
   firings: the counter stops at the text's length, the text shown is the
   typed prefix (the earlier text until the first character is typed), a
   firing stays pending until the one after the last character, and
   `onComplete` is called once, by that firing, and never again.
   */
  lemma {:induction false} RunCourse(text: string, hasOnComplete: bool, display: string, n: nat)
    ensures var s := Run(text, hasOnComplete, Start(display), n);
      && s.index == (if n <= |text| then n else |text|)
      && s.display == (if s.index == 0 then display else text[..s.index])
      && s.pending == (n <= |text|)
      && s.completions == (if n > |text| && hasOnComplete then 1 else 0)
  {
    if n > 0 {
      RunCourse(text, hasOnComplete, display, n - 1);
    }
  }

  /**
   After the cleanup no firing comes: the state stays as the cleanup left it,
   so an animation interrupted by a new text or by unmounting never calls
   `onComplete` afterwards.
   */
  lemma CancelIsFinal(text: string, hasOnComplete: bool, s: State, n: nat)
    ensures Run(text, hasOnComplete, Cancel(s), n) == Cancel(s)
    ensures Run(text, hasOnComplete, Cancel(s), n).completions == s.completions
  {
    Settled(text, hasOnComplete, Cancel(s), 0, n);
  }

  /**
   The text shown is never reset when a run begins: when the text becomes
   empty, whatever was shown before stays shown for good, without a cursor.
   */
  lemma {:induction false} EmptyTextKeepsOldDisplay(hasOnComplete: bool, display: string, n: nat)
    ensures Run("", hasOnComplete, Start(display), n).display == display
    ensures !ShowsCursor("", Run("", hasOnComplete, Start(display), n).display)
  {
    if n > 0 {
      EmptyTextKeepsOldDisplay(hasOnComplete, display, n - 1);
    }
  }
}
